=== FILE: README.md ===
# BouncyBalls — a Dafny model of the game state of a small Pong engine

BouncyBalls is a browser Pong game in one script, `BouncyBalls.js`. This
project models its game-state logic. That logic has several parts:

- **Balls (`Circle`)** bounce off the faces and sides of the paddles, off the
  floor and off the ceiling. They also collide elastically with each other.
- **Paddles (`Rectangle`)** move along a vertical track. A paddle is either
  steered from the keyboard or driven by a computer controller with a
  reaction-time delay.
- **Pause.** `togglePaused` pauses or resumes every object. A pause saves the
  object's velocity in a cache and zeroes it; a resume restores it.
- **Frame update.** Each frame the game serves a new ball once the spawn
  timer has run out. It lets the balls collide and scores and removes the
  balls that left the field on the left or right. It then updates every
  object.
- **Start and keys.** `startGame` sets up the two paddles. The keyboard
  handlers set paddle velocities and toggle the pause.

The model is functional. `Ball`, `Paddle` and `World` are immutable
datatypes over exact `real`s, and every handler is a pure function from a
world to a world. A few things that the script reads from its surroundings
become parameters:

- the clock `Date.now()` is the parameter `now: int` (milliseconds);
- the elapsed frame time is the parameter `dt: real` (seconds);
- the three `Math.random()` values of a serve are a `Draw`;
- the canvas is a `Canvas` of positive width and height;
- `Math.cos`/`Math.sin` of a bounce angle and `Math.sqrt` are the oracle
  `Maths`. Its `turn(f)` stands for `(cos(f·π/2), sin(f·π/2))`. The
  properties that need trigonometry are stated under the hypothesis that
  `turn` returns a unit vector.

JavaScript object identity matters in the script. The list `objects` holds
the same ball objects as `balls`, plus the paddles, and `deleteBall` finds
a ball in `objects` with `indexOf`. The model therefore gives every ball a
fresh `id` (taken from `World.nextId`), and the object list is a list of
references `BallRef(id)` / `PaddleRef(index)`.

`Roster.Wf` is the invariant of a well-formed world:

- the ball references in `objects`, in order, are the ids of `balls`;
- the ids are distinct and below `nextId`;
- every paddle index appears in `objects` exactly once;
- no ball has gravity (nothing in the script sets `ay`);
- every paddle has positive height.

Every handler keeps `Wf`. Under `Wf` a toggle acts on each body exactly
once.

Modules, following the structure of the script:

| module | file | contents |
|---|---|---|
| `Seqs` | seqs.dfy | order-preserving removal, first occurrence, counting, distinctness |
| `Bodies` | bodies.dfy | balls, paddles, canvas constants, `pause`/`resume` of both |
| `Collision` | collision.dfy | the elastic velocity exchange of two bodies, as vectors |
| `PaddleStep` | paddle_step.dfy | `Rectangle.update`: controller and clamped track motion |
| `BallStep` | ball_step.dfy | `Circle.update`: face, side, floor and ceiling bounces, gravity |
| `Roster` | roster.dfy | the world, its invariant, `deleteBall`, `spawnBall`, the spawn gate |
| `Pause` | pause.dfy | `togglePaused` over the object list |
| `Frame` | frame.dfy | ball–ball collisions, scoring, the object loop, `update()`, `startGame` |
| `Input` | input.dfy | the `keydown` and `keyup` handlers |

Some behaviour of the script is modelled as written:

- **The slot after a removed ball is skipped.** In the scoring loop of
  `update()` (lines 446-488), `i` still advances after `deleteBall(i)`. So
  the ball that moves into slot `i` gets no collision round of its own in
  that frame: it has met the balls before it, as their later partner, but
  not the balls after it, and it is not checked against the edges.
  `Frame.SlotSkipped` exhibits this: two balls are both past the left edge,
  yet only one is scored.
- **Pausing twice loses the motion.** A second pause caches zeros, so the
  next resume leaves the body at rest.
- **A floor bounce under gravity can add energy.** `Circle.update`
  integrates `vy` over the whole frame first (line 134) and then computes
  the landing speed from that velocity and the height at the start of the
  frame (lines 138-139). `BallStep.FloorEnergyExcess` gives the surplus,
  and `BallStep.BounceGainsEnergy` exhibits a ball that gains energy. The
  game never sets `ay`, so this branch is not reached in play.
- **Pressing `p` before a game starts unpauses it.** The script starts paused
  and `startGame` toggles the pause. If `p` was released on the start screen,
  the toggle in `startGame` pauses the game. `Frame.StartGame` states this:
  the pause flag is flipped, not set.

## Model

| member | source | states |
|---|---|---|
| Bodies.PauseBall | BouncyBalls.js:54-61 | the motion `(vx, vy, ay)` becomes zero and is saved in the cache; position, size and identity are untouched |
| Bodies.ResumeBall | BouncyBalls.js:62-66 | the motion becomes the cached one and the cache stays; position, size and identity are untouched |
| Bodies.BallPauseResume | BouncyBalls.js:54-66 | pause then resume restores `vx, vy, ay` exactly and moves nothing |
| Bodies.BallPauseTwice | BouncyBalls.js:54-66 | two pauses cache zeros, so a following resume leaves the ball at rest |
| Bodies.BallResumeUnpaused | BouncyBalls.js:62-66 | resuming a ball whose cache matches its motion changes nothing |
| Bodies.PausePaddle | BouncyBalls.js:178-183 | the paddle velocity becomes zero and is saved in the cache; every other field is kept |
| Bodies.ResumePaddle | BouncyBalls.js:184-187 | the velocity becomes the cached one; every other field is kept |
| Bodies.PaddlePauseResume | BouncyBalls.js:178-187 | pause then resume restores `vx, vy`; only the cache now holds that velocity |
| Bodies.PaddlePauseTwice | BouncyBalls.js:178-187 | two pauses and one resume leave the paddle at rest |
| PaddleStep.Target | BouncyBalls.js:190-198 | the controller aims down at paddle speed exactly when the first ball is below the paddle, up exactly when it is above, and otherwise holds |
| PaddleStep.Control | BouncyBalls.js:189-207 | skipped when paused or not computer driven; with no ball the paddle stops; a change happens only after more than 150 ms, heads for the target and is recorded at `now`; past the reaction time the paddle takes its target |
| PaddleStep.Debounce | BouncyBalls.js:199-203 | after a change, a frame within 150 ms keeps the paddle as it is |
| PaddleStep.HoldsOnTarget | BouncyBalls.js:200 | a paddle already at its target velocity is never changed |
| PaddleStep.Move | BouncyBalls.js:208-213 | a track that fits the paddle keeps it on the track `[w, H-h-w]`; an unclamped step is the plain advance; each clamp puts the paddle at the margin it crossed |
| PaddleStep.Update | BouncyBalls.js:188-214 | the paddle stays on a track that fits it, whatever its velocity and the frame time; the velocity is the controller's |
| PaddleStep.StaysOnTrack | BouncyBalls.js:188-214 | confinement holds over any sequence of frames |
| BallStep.BounceTop | BouncyBalls.js:78-86 | after a top-face bounce the ball rests on the face and moves up (strictly, and at least as fast as the paddle, when the paddle lifts it); its speed never drops; only `y` and `vy` change |
| BallStep.BounceBottom | BouncyBalls.js:87-96 | after a bottom-face bounce the ball touches the underside and moves down (strictly, and at least as fast as the paddle, when the paddle presses it); its speed never drops |
| BallStep.SideBounce | BouncyBalls.js:97-119 | the hit is recorded; the time left after contact is at most the frame time, and not negative for a ball that reaches the side within the frame, which then leaves from beyond the side it hit; the height correction is the vertical drift up to contact; with a positive cosine its horizontal direction reverses; with a unit turn its speed is twice the ball speed |
| BallStep.AfterContact | BouncyBalls.js:103-107 | the time left after meeting the side is at most the frame time, and not negative for a ball beside the paddle that reaches it within the frame |
| BallStep.Turn | BouncyBalls.js:109-114 | with a positive cosine the new horizontal velocity points back the way the ball came; with a unit turn the speed is twice the ball speed |
| BallStep.Leave | BouncyBalls.js:115-117 | the ball travels the time left from the side it is sent away from; with that time not negative it ends beyond that side |
| BallStep.Contact | BouncyBalls.js:75-119 | one paddle of the loop: a face bounce leaves the horizontal motion and the hit flag alone and puts the ball on the face it hit, moving away from it; a side approach is always a hit; a ball neither over nor approaching the paddle is untouched, and so is one over it but in neither face band; a ball at rest stays at rest against a paddle without vertical motion |
| BallStep.ScanPaddles | BouncyBalls.js:70-120 | scanning the paddles never changes identity, size or cache; once a hit is found it stays found; with no hit the horizontal motion is untouched; a ball clear of every paddle leaves the loop untouched; a ball at rest among paddles without vertical motion stays at rest |
| BallStep.Fall | BouncyBalls.js:126-132 | the ball ends above the floor; if the step lands below the floor the ball is put on it and `vy` negated, else the step is taken as is |
| BallStep.Gravity | BouncyBalls.js:133-147 | only `y` and `vy` change; without reaching the floor `vy` gains `ay·dt`, the position advances at the new velocity, a ball above the floor stays above it, and the energy `vy² + 2·ay·(height above floor)` drops by `(ay·dt)²`; after a floor bounce the energy is the square of the landing speed the script computes |
| BallStep.FloorEnergyExcess | BouncyBalls.js:134-139 | the squared landing speed is computed from the velocity integrated over the whole frame and the height at its start, so it exceeds the ball's energy by `ay·dt·(2·vy + ay·dt)` |
| BallStep.GravityBounceExact | BouncyBalls.js:133-147 | with an exact square root a floor bounce changes the ball's energy by `ay·dt·(2·vy + ay·dt)`: the bounce does not keep the mechanical energy |
| BallStep.BounceGainsEnergy | BouncyBalls.js:133-147 | a ball at rest 8 units above the floor with `ay = 1`, stepped by 3 s, is bounced although free fall would take 4 s to land, and its energy grows from 16 to 25 |
| BallStep.Ceiling | BouncyBalls.js:149-153 | the ball ends below the ceiling; a ball that crossed it is put on it with `vy` negated; a ball that did not is unchanged |
| BallStep.Update | BouncyBalls.js:68-154 | identity, size and cache are kept; without gravity a ball that fits the canvas ends between ceiling and floor; without a side hit it advances by `dt·vx`; a ball at rest among paddles without vertical motion stays at rest |
| BallStep.WallsKeepSpeed | BouncyBalls.js:122-153 | with no paddle and no gravity only the sign of `vy` changes, and an unobstructed step is the plain advance |
| Collision.Exchange | BouncyBalls.js:461-467 | total momentum is conserved, and the relative velocity along the line of centres is negated |
| Collision.ExchangeKeepsEnergy | BouncyBalls.js:461-467 | total kinetic energy is conserved |
| Collision.ExchangeTogether | BouncyBalls.js:461-467 | bodies moving at the same velocity exchange nothing |
| Frame.Collide | BouncyBalls.js:453-479 | balls that do not touch (or whose centres coincide) are unchanged; otherwise momentum is conserved, the normal relative velocity is negated, and only the first ball is moved |
| Frame.CollideKeepsEnergy | BouncyBalls.js:453-467 | a collision keeps the total kinetic energy |
| Frame.CollideAtRest | BouncyBalls.js:453-479 | two balls at rest stay at rest through a collision |
| Frame.CollideWithAtRest | BouncyBalls.js:448-480 | balls at rest stay at rest through the inner collision loop |
| Frame.Separate | BouncyBalls.js:474-478 | the first ball moves along its new velocity; a ball at rest stays put |
| Frame.CollideStep | BouncyBalls.js:453-479 | one pair `(i, j)` of the inner loop (`Collide` on balls `i` and `j`): only those two balls change, only the `i`-th is moved, and every ball keeps its identity and size |
| Frame.CollideWith | BouncyBalls.js:448-480 | the inner loop over later balls, one `CollideStep` per later ball: keeps every ball's identity and size, moves no ball but the `i`-th, and leaves earlier balls alone |
| Frame.CollideWithKeepsMomentum | BouncyBalls.js:448-480 | the inner loop keeps the total momentum of all balls, in x and in y |
| Frame.Judge | BouncyBalls.js:481-487 | a ball past the left edge scores for the right only, one past the right edge for the left only; either is removed and re-arms the spawn timer; a ball on the field changes nothing |
| Frame.ScoreFrom | BouncyBalls.js:446-488 | the scoring loop from slot `i` (`ScorePass` runs it from the first ball): scores never fall; the points scored equal the balls removed; a removal re-arms the spawn timer; nothing else of the world changes |
| Frame.ScoreKeepsWf | BouncyBalls.js:446-488 | the collision and scoring loop keeps the invariant and keeps balls that fit the canvas fitting |
| Frame.JudgeKeepsRest | BouncyBalls.js:481-487 | removing a ball past an edge sets no remaining ball moving |
| Frame.ScoreAtRest | BouncyBalls.js:446-488 | balls at rest stay at rest through the collision and scoring loop |
| Frame.SlotSkipped | BouncyBalls.js:481-488 | of two balls both past the left edge only the first is scored in that frame |
| Frame.UpdateObjects | BouncyBalls.js:490-492 | the object loop, dispatching `obj.update(elapsedSec)` through `UpdateRef` (and `StepOnId` for a ball reference) to `BallStep.Update` or `PaddleStep.Update`: changes no body's identity or size, and changes nothing else |
| Frame.UpdateBallInBand | BouncyBalls.js:490-492 | a ball without gravity that fits the canvas, and that is in the object list, ends the loop between ceiling and floor; a ball not listed is untouched |
| Frame.UpdatePaddleOnTrack | BouncyBalls.js:490-492 | a listed paddle on a track that fits it ends the loop on the track; an unlisted one is untouched |
| Frame.UpdateAtRest | BouncyBalls.js:490-492 | while paused, balls and paddles at rest are still at rest after the object loop |
| Frame.UpdateKeepsWf | BouncyBalls.js:490-492 | the object loop keeps the invariant and keeps balls that fit the canvas fitting |
| Frame.Step | BouncyBalls.js:435-499 | a frame keeps the pause flag, the controller mode, the paddle count and every paddle's width and height, and never lowers a score |
| Frame.ServeKeepsFits | BouncyBalls.js:442-444 | a serve keeps balls that fit the canvas fitting |
| Frame.StepKeepsWf | BouncyBalls.js:435-499 | a frame keeps the invariant and keeps balls that fit the canvas fitting |
| Frame.StepKeepsFrozen | BouncyBalls.js:435-499 | a frame of a frozen game leaves it frozen: every ball and paddle stays at rest (a paused frame may still put a ball on a paddle face or the floor, and still scores balls past an edge) |
| Frame.StepConfines | BouncyBalls.js:435-499 | after a frame every ball is between ceiling and floor, and every paddle is on a track that fits it |
| Frame.NewPaddle | BouncyBalls.js:165-177 | a new paddle has the given place, size and controller flag, stands still with a cache matching its velocity, and counts its reaction time from `now` |
| Frame.Lineup | BouncyBalls.js:352-366 | two paddles of positive height, the left one computer-driven in single-player mode, the left one wholly left of the right one; the object list is the balls in order, then the left and the right paddle; on a canvas at most 17 times wider than tall both paddles fit and lie on their tracks |
| Frame.LineupPaddles | BouncyBalls.js:355-365 | two paddles, the left one computer-driven in single-player mode and wholly left of the right one, both of positive height; on a canvas at most 17 times wider than tall both fit and lie on their tracks |
| Frame.LineupRefs | BouncyBalls.js:366 | `balls.concat(paddles)`: the references to the balls in order, then `PaddleRef(0)` and `PaddleRef(1)` |
| Frame.LineupKeepsWf | BouncyBalls.js:352-366 | lining up the paddles keeps the invariant |
| Frame.StartGame | BouncyBalls.js:352-368 | the pause flag is flipped and the spawn timer armed at `now`; both paddles are placed as by `Lineup`; the balls are kept |
| Frame.StartKeepsWf | BouncyBalls.js:352-368 | starting a game keeps the invariant |
| Frame.StartKeepsFrozen | BouncyBalls.js:352-368 | a started game is frozen whenever it is paused |
| Frame.StartFromInit | BouncyBalls.js:15-25 | a game started from the loaded state is running and well formed |
| Seqs.RemoveAt | BouncyBalls.js:431 | `splice(i, 1)`: one element fewer, the elements before `i` in place, those after shifted down by one, the multiset less `s[i]` |
| Seqs.IndexOf | BouncyBalls.js:427 | `indexOf`: `-1` exactly when the element is absent, otherwise a position holding it with no earlier occurrence |
| Seqs.RemoveFirst | BouncyBalls.js:427-430 | the guarded `splice(indexOf(x), 1)`: the multiset less one `x`; unchanged when `x` is absent; otherwise the first occurrence cut out, the rest in order |
| Roster.Init | BouncyBalls.js:15-32 | the loaded game has no bodies and no points, is well formed, paused and frozen, has the computer set to play the left paddle, and its first serve is due a spawn delay after loading |
| Roster.DeleteBall | BouncyBalls.js:426-433 | exactly the `i`-th ball is removed from `balls` with the others in order; its first reference is removed from `objects` with the others in order; the spawn timer is set to `now`; nothing else changes |
| Roster.DeleteKeepsWf | BouncyBalls.js:426-433 | deletion keeps the invariant and leaves no reference to the deleted ball |
| Roster.SpawnBall | BouncyBalls.js:378-393 | paused: nothing changes; otherwise exactly one new ball is appended to both lists, the timer is disarmed (`-1`) and a fresh id is used |
| Roster.ServeVelocity | BouncyBalls.js:382-387 | for a unit turn the serve speed is the ball speed; for a positive cosine the serve heads right exactly when the side draw exceeds 0.5 |
| Roster.ServeHeight | BouncyBalls.js:385 | a height draw in `[0, 1)` puts the centre at least a radius below the ceiling and more than a radius above the floor |
| Roster.NewBall | BouncyBalls.js:381-388 | a served ball starts at mid-width, inside the canvas vertically, at ball speed for a unit turn, heading right exactly when the side draw exceeds 0.5 (for a positive cosine), without gravity and with cache equal to its motion |
| Roster.SpawnKeepsWf | BouncyBalls.js:378-393 | serving keeps the invariant |
| Roster.Serve | BouncyBalls.js:442-444 | the spawn gate `SpawnGate` of line 442 (`ts > 0` and at least 1000 ms since): a ball is served only through an open gate in play, and serving closes the gate |
| Roster.DeleteArmsSpawn | BouncyBalls.js:426-444 | after a deletion at time `t` the gate opens exactly at `t + 1000` ms |
| Roster.NoSecondServe | BouncyBalls.js:378-444 | once a ball is served, no later frame serves again until a deletion re-arms the timer |
| Pause.ApplyRefs | BouncyBalls.js:230-238 | the loop over the object list, one `ApplyRef` per reference, which calls `pause()`/`resume()` (`ActBall`, `ActPaddle`) on the object it designates (`ActOnId` for a ball): changes only bodies' velocities and caches; every ball keeps its identity, position and size; the body count is kept |
| Pause.ApplyRef | BouncyBalls.js:231-237 | one object of the loop: only bodies' velocities and caches change, every ball keeps its identity, position and size, and a dangling paddle reference acts on nothing |
| Pause.ApplyRefsBall | BouncyBalls.js:230-238 | a ball is paused (or resumed) once per reference to it |
| Pause.ApplyRefsPaddle | BouncyBalls.js:230-238 | a paddle is paused (or resumed) once per reference to it |
| Pause.TogglePaused | BouncyBalls.js:226-239 | the pause flag flips; only bodies change, and only their velocities and caches |
| Pause.ToggleActsOnce | BouncyBalls.js:226-239 | in a well-formed world each body is paused (or resumed) exactly once |
| Pause.ToggleKeepsWf | BouncyBalls.js:226-239 | toggling keeps the invariant |
| Pause.ToggleTwice | BouncyBalls.js:226-239 | pausing a running game and resuming it restores every velocity and moves nothing |
| Pause.ListedTwice | BouncyBalls.js:230-233 | a ball listed twice in the object list loses its motion on a single pause; the script lists each body once, so under `Wf` this state is unreachable and the row records why the invariant is needed |
| Pause.ToggleFreezes | BouncyBalls.js:226-239 | after a toggle of a well-formed world the world is frozen: a pause stops every ball and paddle, and a resume leaves nothing to freeze |
| Input.Bind | BouncyBalls.js:241-285 | `w`/`s` steer the left paddle unless the computer drives it; `i`/`k`/arrows steer the right one; `w`, `i` and up point up |
| Input.KeyDown | BouncyBalls.js:261-285 | only the bound paddle changes, and only its velocity or cache; its velocity in play becomes paddle speed in the key's direction; the other of velocity and cache is untouched, so a key pressed while paused moves nothing |
| Input.KeyUp | BouncyBalls.js:241-259 | `p` toggles the pause; a steering key zeroes both the velocity and the cache of its paddle and changes nothing else |
| Input.PressTakesEffect | BouncyBalls.js:226-285 | a key pressed while paused takes effect on resume, and one pressed in play survives a pause and resume |
| Input.ReleaseStops | BouncyBalls.js:226-259 | a released paddle is at rest now and after the next toggle |
| Input.KeyDownKeepsWf | BouncyBalls.js:261-285 | a key press keeps the invariant |
| Input.KeyUpKeepsWf | BouncyBalls.js:241-259 | a key release keeps the invariant |
| Input.KeyUpKeepsFrozen | BouncyBalls.js:241-259 | a key release leaves a frozen game frozen |

## Left out

- **Rendering and the interface.** Drawing, the `Button` class, the mouse
  listeners, colours and instruction text are presentation only
  (lines 3-7, 26-31, 33-38, 155-161, 215-223, 287-351, 395-416).
- **The frame clock.** `requestAnimationFrame`, `start()` and the
  computation of `elapsedSec` (lines 418-440) are not modelled. The modulo
  cap at line 439 is a float `%`. The elapsed time and `now` are parameters
  of a frame instead.
- **A single clock reading per handler.** The script reads `Date.now()`
  afresh in `deleteBall` (line 432), in the controller of `Rectangle.update`
  (lines 200 and 202), in the `Rectangle` constructor (line 176) and in
  `startGame` (line 369). The model uses one `now` for all the readings of a
  frame or of a start.
- **`Math.random`.** The model takes the serve's random values as a `Draw`.
  The ball colour (line 52) is left out.
- **Floating point.** Reals are exact. Rounding, overflow, `Infinity` and
  `NaN` are not modelled.
- **Trigonometry and square roots.** They are the uninterpreted oracle
  `Maths`. `Math.sign` and `Math.abs` are exact.
- BallStep.SideBounce: states its speed claim only for a unit `turn`, and
  its direction claim only for a positive cosine, because cos and sin are
  an oracle.
- Roster.NewBall: states its speed and direction claims under the same
  hypotheses on `turn`, for the same reason.
- BallStep.Gravity: states the bounce energy in terms of the root the
  oracle returns; `BallStep.GravityBounceExact` adds the exact-root case.
- **The π in the mass.** `Frame.Mass` is `r²`, not `π·r²`. Only the ratios
  `2·m2/(m1+m2)` and `2·m1/(m1+m2)` enter the velocity update, and π cancels
  in them. The velocities are the same, and momentum and energy are stated
  for the `r²` masses, which is the same statement up to the factor π.
- Frame.Collide: coincident centres. When two touching balls have the
  same centre, the script divides by `r2 = 0` and the velocities become
  `NaN`. The model leaves such a pair unchanged.
- Frame.Separate: a ball left at rest. When the first ball ends a
  collision at rest, the script divides by a zero speed. The model leaves
  the ball's position alone.
- BallStep.ScanPaddles: paddles of zero height are excluded. The
  side bounce divides by the paddle height. Paddles are required to have
  positive height (`BallStep.Upright`), which `startGame` guarantees.
- Frame.StartGame: requires that no paddles exist yet. The script is
  called only from the start buttons, which `startGame` removes. The
  `state` flag and the button list belong to the interface.
- **The gravity branch inside a frame.** The script never sets a ball's
  `ay`, so `Wf` excludes gravity. The floor-bounce energy properties of
  `BallStep.Gravity` are stated per ball, outside the frame.
- **The linter configuration (eslint.config.mjs).** It holds no program
  logic.

=== FILE: ball_step.dfy ===
/** One frame of a ball (`Circle.update`): bounces off the paddles (top and
    bottom faces, and the sides, where the outgoing angle depends on where
    along the paddle the ball arrives), the horizontal advance, the vertical
    step with the floor, and the ceiling. */
module BallStep {
  import opened Bodies

  /** Stand-ins for the transcendental functions the ball step calls:
      `turn(f)` is the pair (cos(f·π/2), sin(f·π/2)) and `sqrt` the square
      root. Nothing is assumed about them unless a contract says so. */
  datatype Maths = Maths(turn: real -> (real, real), sqrt: real -> real)

  /** Bookkeeping of the paddle scan: whether a side bounce happened, the
      vertical drift before the contact and the time left after it. */
  datatype Scan = Scan(collided: bool, heightCorrection: real, tAfter: real)

  /** A ball together with the scan bookkeeping. */
  datatype Hit = Hit(ball: Ball, scan: Scan)

  function Abs(x: real): real { if x < 0.0 then -x else x }

  function Sign(x: real): real { if x > 0.0 then 1.0 else if x < 0.0 then -1.0 else 0.0 }

  /** What a frame of motion never alters: identity, size, acceleration and
      the pause cache. */
  predicate Kept(a: Ball, b: Ball)
  {
    a.id == b.id && a.radius == b.radius && a.ay == b.ay && BallCache(a) == BallCache(b)
  }

  /** The ball's horizontal extent overlaps the paddle's. */
  predicate Spans(b: Ball, p: Paddle)
  {
    b.x + b.radius > p.x && b.x - b.radius < p.x + p.w
  }

  /** The centre is between one radius above the paddle and its bottom edge. */
  predicate TopBand(b: Ball, p: Paddle)
  {
    b.y <= p.y + p.h && b.y >= p.y - b.radius
  }

  /** The centre is between the paddle's top edge and one radius below it. */
  predicate BottomBand(b: Ball, p: Paddle)
  {
    b.y <= p.y + p.h + b.radius && b.y >= p.y
  }

  /** Not yet overlapping horizontally, but overlapping after this frame's
      motion, within the paddle's height widened by the corner bounce radius
      (three quarters of the ball's radius) at each end. */
  predicate SideApproach(b: Ball, p: Paddle, dt: real)
  {
    && b.x + b.radius + dt * b.vx > p.x
    && b.x - b.radius + dt * b.vx < p.x + p.w
    && b.y <= p.y + p.h + 0.75 * b.radius
    && b.y >= p.y - 0.75 * b.radius
  }

  /** The paddle moves up and stays clear of its top margin this frame. */
  predicate Lifts(p: Paddle, dt: real)
  {
    p.vy < 0.0 && p.y + dt * p.vy > p.w
  }

  /** The paddle moves down and stays clear of its bottom margin this frame. */
  predicate Presses(p: Paddle, dt: real, c: Canvas)
  {
    p.vy > 0.0 && p.y + p.h + dt * p.vy < c.height - p.w
  }

  /** Bounce off the top face: the ball is set on the face and sent upward,
      with the paddle's own speed added when the paddle is lifting. */
  function BounceTop(b: Ball, p: Paddle, dt: real): (r: Ball)
    ensures r == b.(y := r.y, vy := r.vy)
    ensures r.y + r.radius == p.y
    ensures r.vy <= 0.0
    ensures Lifts(p, dt) ==> r.vy < 0.0 && r.vy <= p.vy
    ensures !Lifts(p, dt) ==> Abs(r.vy) == Abs(b.vy)
    ensures Abs(r.vy) >= Abs(b.vy)
  {
    b.(vy := if Lifts(p, dt) then p.vy - Abs(b.vy) else -Abs(b.vy), y := p.y - b.radius)
  }

  /** Bounce off the bottom face: the ball is set against the face and sent
      downward, with the paddle's own speed added when the paddle presses. */
  function BounceBottom(b: Ball, p: Paddle, dt: real, c: Canvas): (r: Ball)
    ensures r == b.(y := r.y, vy := r.vy)
    ensures r.y - r.radius == p.y + p.h
    ensures r.vy >= 0.0
    ensures Presses(p, dt, c) ==> r.vy > 0.0 && r.vy >= p.vy
    ensures !Presses(p, dt, c) ==> Abs(r.vy) == Abs(b.vy)
    ensures Abs(r.vy) >= Abs(b.vy)
  {
    b.(vy := if Presses(p, dt, c) then p.vy + Abs(b.vy) else Abs(b.vy), y := p.y + p.h + b.radius)
  }

  /** `(cos a, sin a)` is a unit vector. */
  predicate Unit(cs: (real, real))
  {
    cs.0 * cs.0 + cs.1 * cs.1 == 1.0
  }

  /** Where along the paddle the centre is, from -1/2 at the top edge to 1/2
      at the bottom edge. */
  function Fraction(b: Ball, p: Paddle): real
    requires p.h > 0.0
  {
    (b.y - (p.y + 0.5 * p.h)) / p.h
  }

  /** Bounce off a side of the paddle. The frame is split at the contact
      time: before it the ball drifts vertically at its old speed; at it the
      ball is sent back at twice the serve speed, at an angle proportional to
      where along the paddle it arrived; after it the ball travels the rest
      of the frame horizontally at the new speed, from the paddle's edge. */
  function SideBounce(b: Ball, p: Paddle, dt: real, c: Canvas, m: Maths): (r: Hit)
    requires b.vx != 0.0 && p.h > 0.0
    ensures r.scan.collided
    ensures r.scan.tAfter <= dt
    ensures r.scan.heightCorrection == (dt - r.scan.tAfter) * b.vy
    ensures Kept(r.ball, b) && r.ball.y == b.y
    ensures r.ball.vx > 0.0 ==> r.ball.x - r.ball.radius == p.x + p.w + r.scan.tAfter * r.ball.vx
    ensures r.ball.vx <= 0.0 ==> r.ball.x + r.ball.radius == p.x + r.scan.tAfter * r.ball.vx
    // a ball that reaches a side within the frame leaves from beyond that side
    ensures dt >= 0.0 && !Spans(b, p) && SideApproach(b, p, dt) ==>
              && r.scan.tAfter >= 0.0
              && (r.ball.vx > 0.0 ==> r.ball.x - r.ball.radius >= p.x + p.w)
              && (r.ball.vx <= 0.0 ==> r.ball.x + r.ball.radius <= p.x)
    ensures m.turn(Fraction(b, p)).0 > 0.0 ==> (r.ball.vx > 0.0 <==> b.vx < 0.0)
    ensures Unit(m.turn(Fraction(b, p))) ==>
              r.ball.vx * r.ball.vx + r.ball.vy * r.ball.vy == (2.0 * BallSpeed(c)) * (2.0 * BallSpeed(c))
  {
    var tAfter := AfterContact(b, p, dt);
    var v := Turn(b, p, c, m);
    var x := Leave(p, b.radius, tAfter, v.0);
    Hit(b.(vx := v.0, vy := v.1, x := x), Scan(true, (dt - tAfter) * b.vy, tAfter))
  }

  /** Time left in the frame after the ball meets the side of the paddle it
      approaches. A ball beside the paddle now and overlapping it after the
      frame meets the side within the frame, so that time is not negative. */
  function AfterContact(b: Ball, p: Paddle, dt: real): (t: real)
    requires b.vx != 0.0
    ensures t <= dt
    ensures dt >= 0.0 && !Spans(b, p) && SideApproach(b, p, dt) ==> t >= 0.0
  {
    var distance := if b.vx < 0.0 then (b.x - b.radius) - (p.x + p.w) else p.x - (b.x + b.radius);
    ContactInFrame(b, p, dt, distance);
    dt - Abs(distance / b.vx)
  }

  /** The distance to the side approached, travelled at `vx`, takes no
      longer than the frame when the ball gets there within it. */
  lemma ContactInFrame(b: Ball, p: Paddle, dt: real, distance: real)
    requires b.vx != 0.0
    requires distance == if b.vx < 0.0 then (b.x - b.radius) - (p.x + p.w) else p.x - (b.x + b.radius)
    ensures dt >= 0.0 && !Spans(b, p) && SideApproach(b, p, dt) ==> Abs(distance / b.vx) <= dt
  {
    if dt >= 0.0 && !Spans(b, p) && SideApproach(b, p, dt) {
      if b.vx > 0.0 {
        assert 0.0 <= distance < dt * b.vx;
        assert distance / b.vx < dt;
      } else {
        assert 0.0 <= distance < dt * -b.vx;
        assert distance / -b.vx < dt;
        assert distance / b.vx == -(distance / -b.vx);
      }
    }
  }

  /** The velocity after a side bounce: twice the serve speed, back the way
      the ball came, turned by an angle proportional to where along the
      paddle it arrived. */
  function Turn(b: Ball, p: Paddle, c: Canvas, m: Maths): (v: (real, real))
    requires b.vx != 0.0 && p.h > 0.0
    ensures m.turn(Fraction(b, p)).0 > 0.0 ==> (v.0 > 0.0 <==> b.vx < 0.0)
    ensures Unit(m.turn(Fraction(b, p))) ==> v.0 * v.0 + v.1 * v.1 == (2.0 * BallSpeed(c)) * (2.0 * BallSpeed(c))
  {
    var cs := m.turn(Fraction(b, p));
    var s := Sign(b.vx);
    var k := 2.0 * BallSpeed(c);
    var vx := -s * k * cs.0;
    var vy := k * cs.1;
    UnitTurn(vx, vy, s, k, cs.0, cs.1);
    ReversedDirection(vx, s, k, cs.0);
    (vx, vy)
  }

  /** Where the ball ends after travelling the time `t` left after contact
      at `vx` from the side it hit; when `t` is not negative it is beyond
      that side. */
  function Leave(p: Paddle, radius: real, t: real, vx: real): (x: real)
    ensures vx > 0.0 ==> x - radius == p.x + p.w + t * vx
    ensures vx <= 0.0 ==> x + radius == p.x + t * vx
    ensures t >= 0.0 ==> (vx > 0.0 ==> x - radius >= p.x + p.w) && (vx <= 0.0 ==> x + radius <= p.x)
  {
    if vx > 0.0 then p.x + p.w + radius + t * vx else p.x - radius + t * vx
  }

  /** A unit direction scaled by `k` has speed `k`. */
  lemma UnitTurn(vx: real, vy: real, s: real, k: real, co: real, si: real)
    requires s == 1.0 || s == -1.0
    requires vx == -s * k * co && vy == k * si
    ensures co * co + si * si == 1.0 ==> vx * vx + vy * vy == k * k
  {
    assert vx * vx == (s * s) * (k * k) * (co * co);
    assert s * s == 1.0;
    assert vy * vy == (k * k) * (si * si);
    assert (k * k) * (co * co) + (k * k) * (si * si) == (k * k) * (co * co + si * si);
  }

  /** With a positive cosine and a positive speed, the new horizontal
      velocity has the sign opposite to the old one. */
  lemma ReversedDirection(vx: real, s: real, k: real, co: real)
    requires s == 1.0 || s == -1.0
    requires k > 0.0
    requires vx == -s * k * co
    ensures co > 0.0 ==> (vx > 0.0 <==> s < 0.0)
  {
    if co > 0.0 {
      assert k * co > 0.0;
      if s == 1.0 {
        assert vx == -(k * co);
      } else {
        assert vx == k * co;
      }
    }
  }

  /** One iteration of the paddle loop of `Circle.update`. */
  function Contact(b: Ball, p: Paddle, dt: real, s: Scan, c: Canvas, m: Maths): (r: Hit)
    requires p.h > 0.0
    ensures Kept(r.ball, b)
    ensures s.collided ==> r.scan.collided
    ensures !r.scan.collided ==> r.scan == s && r.ball.x == b.x && r.ball.vx == b.vx
    // a face bounce leaves the horizontal motion and the scan alone
    ensures Spans(b, p) ==> r.scan == s && r.ball.x == b.x && r.ball.vx == b.vx
    ensures Spans(b, p) && TopBand(b, p) ==> r.ball.y + r.ball.radius == p.y && r.ball.vy <= 0.0
    ensures Spans(b, p) && !TopBand(b, p) && BottomBand(b, p) ==>
              r.ball.y - r.ball.radius == p.y + p.h && r.ball.vy >= 0.0
    // a side approach is a hit
    ensures !Spans(b, p) && SideApproach(b, p, dt) ==> b.vx != 0.0 && r.scan.collided
    ensures !Spans(b, p) && !SideApproach(b, p, dt) ==> r == Hit(b, s)
    // a ball clear of the paddle passes it untouched
    ensures Spans(b, p) && !TopBand(b, p) && !BottomBand(b, p) ==> r == Hit(b, s)
    // a ball at rest stays at rest against a paddle that does not move vertically
    ensures BallMotion(b) == Still && p.vy == 0.0 ==> BallMotion(r.ball) == Still
  {
    if Spans(b, p) then
      if TopBand(b, p) then Hit(BounceTop(b, p, dt), s)
      else if BottomBand(b, p) then Hit(BounceBottom(b, p, dt, c), s)
      else Hit(b, s)
    else if SideApproach(b, p, dt) then
      SideBounce(b, p, dt, c, m)
    else Hit(b, s)
  }

  /** Every paddle has a positive height (the side bounce divides by it). */
  predicate Upright(paddles: seq<Paddle>)
  {
    forall k :: 0 <= k < |paddles| ==> paddles[k].h > 0.0
  }

  /** The ball meets the paddle on neither a face nor a side this frame. */
  predicate Clear(b: Ball, p: Paddle, dt: real)
  {
    if Spans(b, p) then !TopBand(b, p) && !BottomBand(b, p) else !SideApproach(b, p, dt)
  }

  /** No paddle moves vertically. */
  predicate Level(paddles: seq<Paddle>)
  {
    forall k :: 0 <= k < |paddles| ==> paddles[k].vy == 0.0
  }

  /** The whole paddle loop: every paddle in turn sees the ball as the
      previous ones left it. */
  function ScanPaddles(b: Ball, paddles: seq<Paddle>, dt: real, s: Scan, c: Canvas, m: Maths): (r: Hit)
    requires Upright(paddles)
    ensures Kept(r.ball, b)
    ensures s.collided ==> r.scan.collided
    ensures !r.scan.collided ==> r.scan == s && r.ball.x == b.x && r.ball.vx == b.vx
    // a ball clear of every paddle leaves the loop untouched
    ensures (forall k :: 0 <= k < |paddles| ==> Clear(b, paddles[k], dt)) ==> r == Hit(b, s)
    // a ball at rest among paddles that do not move vertically stays at rest
    ensures BallMotion(b) == Still && Level(paddles) ==> BallMotion(r.ball) == Still
    decreases |paddles|
  {
    if |paddles| == 0 then Hit(b, s)
    else
      var h := Contact(b, paddles[0], dt, s, c, m);
      ScanPaddles(h.ball, paddles[1..], dt, h.scan, c, m)
  }

  /** Vertical step without gravity: drift before the side contact, then the
      rest of the frame at the current speed; a ball through the floor is set
      on it and its vertical velocity reversed. */
  function Fall(b: Ball, heightCorrection: real, tAfter: real, c: Canvas): (r: Ball)
    ensures r == b.(y := r.y, vy := r.vy)
    ensures r.y + r.radius <= c.height
    ensures r.vy == b.vy || r.vy == -b.vy
    ensures b.y + (heightCorrection + tAfter * b.vy) + b.radius <= c.height ==>
              r.y == b.y + (heightCorrection + tAfter * b.vy) && r.vy == b.vy
    ensures b.y + (heightCorrection + tAfter * b.vy) + b.radius > c.height ==>
              r.y + r.radius == c.height && r.vy == -b.vy
  {
    var y := b.y + (heightCorrection + tAfter * b.vy);
    if y + b.radius > c.height then b.(y := c.height - b.radius, vy := -b.vy)
    else b.(y := y)
  }

  /** Vertical velocity after this frame's gravity, before any bounce. */
  function Landing(b: Ball, dt: real): real
  {
    b.vy + b.ay * dt
  }

  /** With the integrated velocity the ball would cross the floor this frame. */
  predicate ReachesFloor(b: Ball, dt: real, c: Canvas)
  {
    Landing(b, dt) > 0.0 && b.y + dt * Landing(b, dt) + b.radius > c.height
  }

  /** Square of the speed at which the ball meets the floor: vy² + 2·ay·d,
      `d` the height of the ball above the floor. */
  function FloorEnergy(b: Ball, dt: real, c: Canvas): real
  {
    Landing(b, dt) * Landing(b, dt) + 2.0 * b.ay * (c.height - (b.y + b.radius))
  }

  /** Velocity and height above the floor after rising from it at speed `g`
      for time `t` under acceleration `a`. Speed is traded for height:
      v² + 2·a·h stays g². */
  function Rebound(g: real, a: real, t: real): (r: (real, real))
    ensures r.0 * r.0 + 2.0 * a * r.1 == g * g
    ensures r.0 == -g + a * t && r.1 == g * t - 0.5 * a * t * t
  {
    var v := -g + a * t;
    var h := g * t - 0.5 * a * t * t;
    RiseKeepsEnergy(g, a, t, v, h);
    (v, h)
  }

  lemma RiseKeepsEnergy(g: real, a: real, t: real, v: real, h: real)
    requires v == -g + a * t
    requires h == g * t - 0.5 * a * t * t
    ensures v * v + 2.0 * a * h == g * g
  {
    assert v * v == g * g - 2.0 * a * (g * t) + (a * t) * (a * t);
    assert 2.0 * a * h == 2.0 * a * (g * t) - (a * t) * (a * t);
  }

  /** Time left in the frame once the ball, accelerating at `a` from `v`,
      has reached the floor at speed `g`. */
  function RiseTime(dt: real, g: real, v: real, a: real): real
    requires a != 0.0
  {
    dt - (g - v) / a
  }

  /** Vertical step with gravity: the velocity is integrated first; a ball
      that would go through the floor this frame is bounced analytically: it
      meets the floor at speed `sqrt(FloorEnergy)` and rises for the time
      `trise` left once it has got there. In free fall the step loses
      (ay·dt)² of vy² + 2·ay·(height above the floor); a bounce leaves the
      ball with the square of the speed it was computed to meet the floor at. */
  function Gravity(b: Ball, dt: real, c: Canvas, m: Maths): (r: Ball)
    requires b.ay != 0.0
    ensures r == b.(y := r.y, vy := r.vy)
    ensures !ReachesFloor(b, dt, c) ==> r.vy - b.vy == b.ay * dt && r.y - b.y == dt * r.vy
    ensures !ReachesFloor(b, dt, c) ==> Energy(r, c) == Energy(b, c) - (b.ay * dt) * (b.ay * dt)
    // a ball above the floor that does not reach it stays above it
    ensures !ReachesFloor(b, dt, c) && dt >= 0.0 && b.y + b.radius <= c.height ==> r.y + r.radius <= c.height
    ensures ReachesFloor(b, dt, c) ==> Energy(r, c) == m.sqrt(FloorEnergy(b, dt, c)) * m.sqrt(FloorEnergy(b, dt, c))
  {
    var vy := Landing(b, dt);
    if ReachesFloor(b, dt, c) then
      var vground := m.sqrt(FloorEnergy(b, dt, c));
      var trise := RiseTime(dt, vground, vy, b.ay);
      var up := Rebound(vground, b.ay, trise);
      var r := b.(vy := up.0, y := c.height - b.radius - up.1);
      EnergyOf(r, c, up.0, up.1);
      r
    else
      var r := b.(vy := vy, y := b.y + dt * vy);
      FreeFallEnergy(b.vy, b.ay, dt, c.height - (b.y + b.radius));
      EnergyOf(r, c, vy, c.height - (b.y + b.radius) - dt * vy);
      EnergyOf(b, c, b.vy, c.height - (b.y + b.radius));
      r
  }

  /** vy² + 2·ay·(height of the ball above the floor): twice the mechanical
      energy per unit mass, which free fall under `ay` keeps constant. */
  function Energy(b: Ball, c: Canvas): real
  {
    b.vy * b.vy + 2.0 * b.ay * (c.height - (b.y + b.radius))
  }

  lemma EnergyOf(b: Ball, c: Canvas, v: real, h: real)
    requires b.vy == v && c.height - (b.y + b.radius) == h
    ensures Energy(b, c) == v * v + 2.0 * b.ay * h
  {
  }

  /** One explicit step of free fall (velocity first, then position with the
      new velocity) loses (a·dt)² of v² + 2·a·h. */
  lemma FreeFallEnergy(v: real, a: real, dt: real, h: real)
    ensures (v + a * dt) * (v + a * dt) + 2.0 * a * (h - dt * (v + a * dt))
         == v * v + 2.0 * a * h - (a * dt) * (a * dt)
  {
    assert (v + a * dt) * (v + a * dt) == v * v + 2.0 * a * (dt * v) + (a * dt) * (a * dt);
    assert 2.0 * a * (dt * (v + a * dt)) == 2.0 * a * (dt * v) + 2.0 * (a * dt) * (a * dt);
  }

  /** The speed at which the gravity step takes the ball to meet the floor is
      computed from the velocity already integrated over the whole frame but
      from the height at the start of the frame: the square of that speed
      exceeds the ball's energy by ay·dt·(2·vy + ay·dt). */
  lemma FloorEnergyExcess(b: Ball, dt: real, c: Canvas)
    ensures FloorEnergy(b, dt, c) == Energy(b, c) + b.ay * dt * (2.0 * b.vy + b.ay * dt)
  {
    var a := b.ay;
    assert Landing(b, dt) * Landing(b, dt) == b.vy * b.vy + a * dt * (2.0 * b.vy + a * dt);
  }

  /** The square-root stand-in is exact at `x`. */
  predicate ExactRoot(m: Maths, x: real)
  {
    m.sqrt(x) * m.sqrt(x) == x
  }

  /** With an exact square root a floor bounce changes the ball's energy by
      ay·dt·(2·vy + ay·dt), which is not zero in general: the bounce does not
      keep the mechanical energy. */
  lemma GravityBounceExact(b: Ball, dt: real, c: Canvas, m: Maths)
    requires b.ay != 0.0 && ReachesFloor(b, dt, c) && ExactRoot(m, FloorEnergy(b, dt, c))
    ensures Energy(Gravity(b, dt, c, m), c) == Energy(b, c) + b.ay * dt * (2.0 * b.vy + b.ay * dt)
  {
    FloorEnergyExcess(b, dt, c);
  }

  /** A ball at rest 8 units above the floor under `ay = 1`, stepped by 3
      seconds: free fall would take 4 seconds to land, yet the step bounces
      it, and its energy grows from 16 to 25. */
  lemma BounceGainsEnergy()
    ensures
      var c: Canvas := Size(100.0, 100.0);
      var b := Ball(0, 50.0, 82.0, 0.0, 0.0, 10.0, 1.0, 0.0, 0.0, 1.0);
      var m := Maths(f => (1.0, 0.0), x => if x == 25.0 then 5.0 else 0.0);
      && c.height - (b.y + b.radius) == 8.0
      && ReachesFloor(b, 3.0, c)
      && Energy(b, c) == 16.0
      && Energy(Gravity(b, 3.0, c, m), c) == 25.0
  {
    var c: Canvas := Size(100.0, 100.0);
    var b := Ball(0, 50.0, 82.0, 0.0, 0.0, 10.0, 1.0, 0.0, 0.0, 1.0);
    var m := Maths(f => (1.0, 0.0), x => if x == 25.0 then 5.0 else 0.0);
    assert FloorEnergy(b, 3.0, c) == 25.0;
    assert m.sqrt(25.0) == 5.0;
  }

  /** A ball through the top of the canvas is set against it and its
      vertical velocity reversed. */
  function Ceiling(b: Ball): (r: Ball)
    ensures r == b.(y := r.y, vy := r.vy)
    ensures r.y >= r.radius
    ensures r.vy == b.vy || r.vy == -b.vy
    ensures b.y - b.radius >= 0.0 ==> r == b
    ensures b.y - b.radius < 0.0 ==> r.y == r.radius && r.vy == -b.vy
  {
    if b.y - b.radius < 0.0 then b.(y := b.radius, vy := -b.vy) else b
  }

  /** `Circle.update(elapsedSec)` against the given paddles. Without gravity,
      a ball that fits between floor and ceiling ends the frame between them. */
  function Update(b: Ball, paddles: seq<Paddle>, dt: real, c: Canvas, m: Maths): (r: Ball)
    requires Upright(paddles)
    ensures Kept(r, b)
    ensures b.ay == 0.0 && 2.0 * b.radius <= c.height ==> b.radius <= r.y <= c.height - b.radius
    ensures !ScanPaddles(b, paddles, dt, Scan(false, 0.0, dt), c, m).scan.collided ==>
              r.x == b.x + dt * b.vx && r.vx == b.vx
    // a ball at rest among paddles that do not move vertically stays at rest
    ensures BallMotion(b) == Still && Level(paddles) ==> BallMotion(r) == Still
  {
    var h := ScanPaddles(b, paddles, dt, Scan(false, 0.0, dt), c, m);
    var moved := if h.scan.collided then h.ball else h.ball.(x := h.ball.x + dt * h.ball.vx);
    var settled :=
      if moved.ay == 0.0 then Fall(moved, h.scan.heightCorrection, h.scan.tAfter, c)
      else Gravity(moved, dt, c, m);
    Ceiling(settled)
  }

  /** Between the walls, without gravity and away from paddles, a frame
      keeps the speed: the floor and ceiling only reverse the vertical
      velocity, and the horizontal one is untouched. A ball whose straight
      path stays inside simply moves by `dt` times its velocity. */
  lemma WallsKeepSpeed(b: Ball, dt: real, c: Canvas, m: Maths)
    requires b.ay == 0.0 && 2.0 * b.radius <= c.height
    ensures
      var r := Update(b, [], dt, c, m);
      r.vx == b.vx && Abs(r.vy) == Abs(b.vy) && r.x == b.x + dt * b.vx
    ensures
      var r := Update(b, [], dt, c, m);
      b.radius <= b.y + dt * b.vy <= c.height - b.radius ==> r.y == b.y + dt * b.vy && r.vy == b.vy
  {
    var moved := b.(x := b.x + dt * b.vx);
    assert Update(b, [], dt, c, m) == Ceiling(Fall(moved, 0.0, dt, c));
  }
}

=== FILE: bodies.dfy ===
/** The simulated bodies of the Pong engine: balls (`Circle`) and paddles
    (`Rectangle`), the canvas they move on, the game constants derived from
    the canvas size, and the pause/resume velocity caching both bodies share.

    Coordinates are screen pixels (y grows downward), velocities pixels per
    second; JavaScript doubles are modelled by exact reals. */
module Bodies {

  /** Size of the drawing surface. */
  datatype Size = Size(width: real, height: real)

  /** A canvas of positive width and height. */
  type Canvas = s: Size | s.width > 0.0 && s.height > 0.0 witness Size(1.0, 1.0)

  /** Serve speed of a ball: half the canvas height per second. */
  function BallSpeed(c: Canvas): real { 0.5 * c.height }

  /** Speed of a driven paddle: twice the ball speed. */
  function PaddleSpeed(c: Canvas): real { 2.0 * BallSpeed(c) }

  /** Radius of every spawned ball: 3% of the canvas height. */
  function BallRadius(c: Canvas): real { 0.03 * c.height }

  /** The CPU paddle waits strictly longer than this between velocity changes. */
  const ReactionTimeMs: int := 150

  /** Delay between arming the spawn timer and the next serve. */
  const SpawnDelayMs: int := 1000

  /** A ball. `id` stands for the JavaScript object identity (the same object
      sits in both the ball list and the object list); `ay` is the vertical
      acceleration; the `...Cached` fields hold the motion saved by a pause. */
  datatype Ball = Ball(id: nat, x: real, y: real, vx: real, vy: real, radius: real,
                       ay: real, vxCached: real, vyCached: real, ayCached: real)

  /** A paddle: top-left corner `(x, y)`, size `w` by `h`, velocity, the
      velocity saved by a pause, whether the computer drives it, and when its
      controller last changed its velocity (milliseconds). */
  datatype Paddle = Paddle(x: real, y: real, vx: real, vy: real, w: real, h: real,
                           vxCached: real, vyCached: real, cpu: bool, lastChangeMs: int)

  /** The part of a ball's state that a pause suspends. */
  datatype Motion = Motion(vx: real, vy: real, ay: real)

  const Still := Motion(0.0, 0.0, 0.0)

  function BallMotion(b: Ball): Motion { Motion(b.vx, b.vy, b.ay) }

  function BallCache(b: Ball): Motion { Motion(b.vxCached, b.vyCached, b.ayCached) }

  /** Identity, position and size: what pausing and resuming never touch. */
  predicate SamePlace(a: Ball, b: Ball)
  {
    a.id == b.id && a.x == b.x && a.y == b.y && a.radius == b.radius
  }

  /** `Circle.pause`: save the motion, then stop. */
  function PauseBall(b: Ball): (r: Ball)
    ensures BallMotion(r) == Still
    ensures BallCache(r) == BallMotion(b)
    ensures SamePlace(r, b)
  {
    b.(vxCached := b.vx, vyCached := b.vy, ayCached := b.ay, vx := 0.0, vy := 0.0, ay := 0.0)
  }

  /** `Circle.resume`: take the saved motion back; the cache is kept. */
  function ResumeBall(b: Ball): (r: Ball)
    ensures BallMotion(r) == BallCache(b)
    ensures BallCache(r) == BallCache(b)
    ensures SamePlace(r, b)
  {
    b.(vx := b.vxCached, vy := b.vyCached, ay := b.ayCached)
  }

  /** A pause followed by a resume gives the ball back its exact motion. */
  lemma BallPauseResume(b: Ball)
    ensures BallMotion(ResumeBall(PauseBall(b))) == BallMotion(b)
    ensures SamePlace(ResumeBall(PauseBall(b)), b)
  {
  }

  /** A second pause overwrites the cache with zeros, so the ball stays still
      after the resume. */
  lemma BallPauseTwice(b: Ball)
    ensures BallMotion(ResumeBall(PauseBall(PauseBall(b)))) == Still
    ensures BallCache(PauseBall(PauseBall(b))) == Still
  {
  }

  /** Resuming a ball whose cache already equals its motion (one that was
      never paused, since the constructor fills the cache) changes nothing. */
  lemma BallResumeUnpaused(b: Ball)
    requires BallCache(b) == BallMotion(b)
    ensures ResumeBall(b) == b
  {
  }

  /** The velocity of a paddle, live or cached. */
  function PaddleVelocity(p: Paddle): (real, real) { (p.vx, p.vy) }

  function PaddleCache(p: Paddle): (real, real) { (p.vxCached, p.vyCached) }

  /** `Rectangle.pause`: save the velocity, then stop. */
  function PausePaddle(p: Paddle): (r: Paddle)
    ensures PaddleVelocity(r) == (0.0, 0.0)
    ensures PaddleCache(r) == PaddleVelocity(p)
    ensures r.(vx := p.vx, vy := p.vy, vxCached := p.vxCached, vyCached := p.vyCached) == p
  {
    p.(vxCached := p.vx, vyCached := p.vy, vx := 0.0, vy := 0.0)
  }

  /** `Rectangle.resume`: take the saved velocity back. */
  function ResumePaddle(p: Paddle): (r: Paddle)
    ensures PaddleVelocity(r) == PaddleCache(p)
    ensures r.(vx := p.vx, vy := p.vy) == p
  {
    p.(vx := p.vxCached, vy := p.vyCached)
  }

  lemma PaddlePauseResume(p: Paddle)
    ensures ResumePaddle(PausePaddle(p)) == p.(vxCached := p.vx, vyCached := p.vy)
  {
  }

  lemma PaddlePauseTwice(p: Paddle)
    ensures PaddleVelocity(ResumePaddle(PausePaddle(PausePaddle(p)))) == (0.0, 0.0)
  {
  }
}

=== FILE: collision.dfy ===
/** Two-dimensional elastic collision of two discs without friction or spin:
    the velocity update the game applies to a touching pair of balls
    (`update()`, the `dotProductOverR2` block). */
module Collision {

  datatype Vec = Vec(x: real, y: real)

  function Sub(a: Vec, b: Vec): Vec { Vec(a.x - b.x, a.y - b.y) }

  function Dot(a: Vec, b: Vec): real { a.x * b.x + a.y * b.y }

  /** Momentum of a body of mass `m` moving at `v`. */
  function Momentum(m: real, v: Vec): Vec { Vec(m * v.x, m * v.y) }

  function Plus(a: Vec, b: Vec): Vec { Vec(a.x + b.x, a.y + b.y) }

  /** Twice the kinetic energy of a body of mass `m` moving at `v`. */
  function Energy2(m: real, v: Vec): real { m * Dot(v, v) }

  /** New velocities of bodies 1 and 2 (centres `p1`, `p2`, velocities `v1`,
      `v2`, masses `m1`, `m2`). The relative velocity projected on the line
      of centres is divided by the squared distance of the centres, which
      must therefore be positive; the mass weights divide by the total mass. */
  function Exchange(p1: Vec, v1: Vec, m1: real, p2: Vec, v2: Vec, m2: real): (r: (Vec, Vec))
    requires Dot(Sub(p1, p2), Sub(p1, p2)) > 0.0
    requires m1 >= 0.0 && m2 >= 0.0 && m1 + m2 > 0.0
    ensures Plus(Momentum(m1, r.0), Momentum(m2, r.1)) == Plus(Momentum(m1, v1), Momentum(m2, v2))
    ensures Dot(Sub(r.0, r.1), Sub(p1, p2)) == -Dot(Sub(v1, v2), Sub(p1, p2))
  {
    var d := Sub(p1, p2);
    var k := Dot(Sub(v1, v2), d) / Dot(d, d);
    var t1 := 2.0 * m2 / (m1 + m2) * k;
    var t2 := 2.0 * m1 / (m1 + m2) * k;
    var w1 := Vec(v1.x - t1 * (p1.x - p2.x), v1.y - t1 * (p1.y - p2.y));
    var w2 := Vec(v2.x - t2 * (p2.x - p1.x), v2.y - t2 * (p2.y - p1.y));
    WeightsBalance(m1, m2, k);
    KickConserves(m1, m2, v1, v2, t1, t2, d);
    NormalReverses(v1, v2, d, k, t1, t2);
    (w1, w2)
  }

  /** Bodies moving together exchange nothing. */
  lemma ExchangeTogether(p1: Vec, v1: Vec, m1: real, p2: Vec, v2: Vec, m2: real)
    requires Dot(Sub(p1, p2), Sub(p1, p2)) > 0.0
    requires m1 >= 0.0 && m2 >= 0.0 && m1 + m2 > 0.0
    ensures v1 == v2 ==> Exchange(p1, v1, m1, p2, v2, m2) == (v1, v2)
  {
    var d := Sub(p1, p2);
    if v1 == v2 {
      assert Dot(Sub(v1, v2), d) == 0.0;
    }
  }

  /** Both weighted impulses carry the same momentum, 2·m1·m2·k/(m1+m2),
      and the two weights add up to 2. */
  lemma WeightsBalance(m1: real, m2: real, k: real)
    requires m1 + m2 > 0.0
    ensures m1 * (2.0 * m2 / (m1 + m2) * k) == m2 * (2.0 * m1 / (m1 + m2) * k)
    ensures 2.0 * m2 / (m1 + m2) * k + 2.0 * m1 / (m1 + m2) * k == 2.0 * k
  {
    var s := m1 + m2;
    assert 2.0 * m2 / s + 2.0 * m1 / s == (2.0 * m2 + 2.0 * m1) / s;
    assert 2.0 * m2 + 2.0 * m1 == 2.0 * s;
    assert 2.0 * s / s == 2.0;
    assert m1 * (2.0 * m2 / s) == (2.0 * m1 * m2) / s;
    assert m2 * (2.0 * m1 / s) == (2.0 * m1 * m2) / s;
    assert m1 * (2.0 * m2 / s * k) == (m1 * (2.0 * m2 / s)) * k;
    assert m2 * (2.0 * m1 / s * k) == (m2 * (2.0 * m1 / s)) * k;
    assert 2.0 * m2 / s * k + 2.0 * m1 / s * k == (2.0 * m2 / s + 2.0 * m1 / s) * k;
  }

  /** One coordinate of the momentum balance: equal and opposite impulses cancel. */
  lemma ImpulsesCancel(m1: real, m2: real, a: real, b: real, t1: real, t2: real, e: real, e': real)
    requires m1 * t1 == m2 * t2
    requires e' == -e
    ensures m1 * (a - t1 * e) + m2 * (b - t2 * e') == m1 * a + m2 * b
  {
    assert m1 * (a - t1 * e) == m1 * a - (m1 * t1) * e;
    assert t2 * e' == -(t2 * e);
    assert m2 * (b - t2 * e') == m2 * b + (m2 * t2) * e;
  }

  /** Equal and opposite impulses along `d` keep the total momentum. */
  lemma KickConserves(m1: real, m2: real, v1: Vec, v2: Vec, t1: real, t2: real, d: Vec)
    requires m1 * t1 == m2 * t2
    ensures Plus(Momentum(m1, Vec(v1.x - t1 * d.x, v1.y - t1 * d.y)),
                 Momentum(m2, Vec(v2.x - t2 * (-d.x), v2.y - t2 * (-d.y))))
         == Plus(Momentum(m1, v1), Momentum(m2, v2))
  {
    var w1 := Vec(v1.x - t1 * d.x, v1.y - t1 * d.y);
    var w2 := Vec(v2.x - t2 * (-d.x), v2.y - t2 * (-d.y));
    ImpulsesCancel(m1, m2, v1.x, v2.x, t1, t2, d.x, -d.x);
    ImpulsesCancel(m1, m2, v1.y, v2.y, t1, t2, d.y, -d.y);
    assert Plus(Momentum(m1, w1), Momentum(m2, w2)).x == m1 * v1.x + m2 * v2.x;
    assert Plus(Momentum(m1, w1), Momentum(m2, w2)).y == m1 * v1.y + m2 * v2.y;
  }

  /** With impulses adding up to 2·k and `k` the projection divided by |d|²,
      the exchange turns the normal relative velocity around. */
  lemma NormalReverses(v1: Vec, v2: Vec, d: Vec, k: real, t1: real, t2: real)
    requires Dot(d, d) > 0.0
    requires k == Dot(Sub(v1, v2), d) / Dot(d, d)
    requires t1 + t2 == 2.0 * k
    ensures
      var w1 := Vec(v1.x - t1 * d.x, v1.y - t1 * d.y);
      var w2 := Vec(v2.x - t2 * (-d.x), v2.y - t2 * (-d.y));
      Dot(Sub(w1, w2), d) == -Dot(Sub(v1, v2), d)
  {
    var w1 := Vec(v1.x - t1 * d.x, v1.y - t1 * d.y);
    var w2 := Vec(v2.x - t2 * (-d.x), v2.y - t2 * (-d.y));
    var rel := Dot(Sub(v1, v2), d);
    var g := t1 + t2;
    assert t2 * (-d.x) == -(t2 * d.x) && t2 * (-d.y) == -(t2 * d.y);
    assert Sub(w1, w2) == Vec((v1.x - v2.x) - g * d.x, (v1.y - v2.y) - g * d.y);
    assert Dot(Sub(w1, w2), d) == rel - g * Dot(d, d);
    assert k * Dot(d, d) == rel;
    assert g * Dot(d, d) == 2.0 * (k * Dot(d, d));
  }

  /** (p - t·e)² expanded. */
  lemma SquareShift(p: real, t: real, e: real)
    ensures (p - t * e) * (p - t * e) == p * p - 2.0 * t * (p * e) + t * t * (e * e)
  {
    var q := t * e;
    assert (p - q) * (p - q) == p * p - 2.0 * (p * q) + q * q;
    assert p * q == t * (p * e);
    assert q * q == t * t * (e * e);
  }

  /** Kinetic energy after a velocity change of `-t·d`, expanded. */
  lemma ExpandEnergy(m: real, v: Vec, t: real, d: Vec)
    ensures Energy2(m, Vec(v.x - t * d.x, v.y - t * d.y))
         == Energy2(m, v) - 2.0 * (m * t) * Dot(v, d) + (m * t) * t * Dot(d, d)
  {
    var a := v.x - t * d.x;
    var b := v.y - t * d.y;
    SquareShift(v.x, t, d.x);
    SquareShift(v.y, t, d.y);
    var s := a * a + b * b;
    assert s == Dot(v, v) - 2.0 * t * Dot(v, d) + t * t * Dot(d, d);
    assert m * s == m * Dot(v, v) - 2.0 * (m * t) * Dot(v, d) + (m * t) * t * Dot(d, d);
  }

  /** Equal and opposite impulses along `d` that add up to twice the
      normal relative velocity keep the total kinetic energy. */
  lemma KickKeepsEnergy(m1: real, m2: real, v1: Vec, v2: Vec, d: Vec, k: real, t1: real, t2: real)
    requires k * Dot(d, d) == Dot(Sub(v1, v2), d)
    requires m1 * t1 == m2 * t2 && t1 + t2 == 2.0 * k
    ensures Energy2(m1, Vec(v1.x - t1 * d.x, v1.y - t1 * d.y))
          + Energy2(m2, Vec(v2.x - t2 * (-d.x), v2.y - t2 * (-d.y)))
         == Energy2(m1, v1) + Energy2(m2, v2)
  {
    ExpandEnergy(m1, v1, t1, d);
    ExpandEnergy(m2, v2, -t2, d);
    assert Vec(v2.x - t2 * (-d.x), v2.y - t2 * (-d.y)) == Vec(v2.x - (-t2) * d.x, v2.y - (-t2) * d.y);
    assert m2 * (-t2) == -(m1 * t1);
    assert Dot(v1, d) - Dot(v2, d) == Dot(Sub(v1, v2), d);
    EnergyBalance(Energy2(m1, Vec(v1.x - t1 * d.x, v1.y - t1 * d.y)),
                  Energy2(m2, Vec(v2.x - (-t2) * d.x, v2.y - (-t2) * d.y)),
                  Energy2(m1, v1), Energy2(m2, v2), m1 * t1, m2 * (-t2),
                  Dot(v1, d), Dot(v2, d), t1, -t2, Dot(d, d), k);
  }

  /** The energy bookkeeping of an exchange: with opposite impulse momenta
      `mu1`, `mu2`, the linear terms add up to -2·mu1·k·r2 and the quadratic
      ones to +2·mu1·k·r2. */
  lemma EnergyBalance(e1: real, e2: real, E1: real, E2: real, mu1: real, mu2: real,
                      D1: real, D2: real, s1: real, s2: real, r2: real, k: real)
    requires e1 == E1 - 2.0 * mu1 * D1 + mu1 * s1 * r2
    requires e2 == E2 - 2.0 * mu2 * D2 + mu2 * s2 * r2
    requires mu2 == -mu1 && s1 - s2 == 2.0 * k && k * r2 == D1 - D2
    ensures e1 + e2 == E1 + E2
  {
    assert mu2 * s2 * r2 == -(mu1 * s2 * r2);
    assert 2.0 * mu2 * D2 == -(2.0 * mu1 * D2);
    assert mu1 * s1 * r2 - mu1 * s2 * r2 == mu1 * (s1 - s2) * r2;
    assert mu1 * (2.0 * k) * r2 == 2.0 * mu1 * (k * r2);
    assert 2.0 * mu1 * D1 - 2.0 * mu1 * D2 == 2.0 * mu1 * (D1 - D2);
  }

  /** The exchange is elastic: the total kinetic energy is unchanged. */
  lemma ExchangeKeepsEnergy(p1: Vec, v1: Vec, m1: real, p2: Vec, v2: Vec, m2: real)
    requires Dot(Sub(p1, p2), Sub(p1, p2)) > 0.0
    requires m1 >= 0.0 && m2 >= 0.0 && m1 + m2 > 0.0
    ensures
      var r := Exchange(p1, v1, m1, p2, v2, m2);
      Energy2(m1, r.0) + Energy2(m2, r.1) == Energy2(m1, v1) + Energy2(m2, v2)
  {
    var d := Sub(p1, p2);
    var k := Dot(Sub(v1, v2), d) / Dot(d, d);
    var t1 := 2.0 * m2 / (m1 + m2) * k;
    var t2 := 2.0 * m1 / (m1 + m2) * k;
    WeightsBalance(m1, m2, k);
    KickKeepsEnergy(m1, m2, v1, v2, d, k, t1, t2);
  }
}

=== FILE: frame.dfy ===
/** One frame of the game loop (`update()`): the spawn gate, the ball–ball
    collisions and the scoring of balls that left the canvas, then one step
    of every object of the object list. Also `startGame`. The elapsed time
    and the clock reading of the frame are parameters. */
module Frame {
  import opened Bodies
  import opened Seqs
  import opened Roster
  import Collision
  import BallStep
  import PaddleStep
  import Pause

  function Pos(b: Ball): Collision.Vec { Collision.Vec(b.x, b.y) }

  function Vel(b: Ball): Collision.Vec { Collision.Vec(b.vx, b.vy) }

  /** The collision mass of a ball. The game uses π·r²; only the ratios
      2·m2/(m1+m2) and 2·m1/(m1+m2) enter the collision, where π cancels,
      so r² gives the same velocities. */
  function Mass(b: Ball): real { b.radius * b.radius }

  /** Squared distance of the centres. */
  function Dist2(a: Ball, b: Ball): real
  {
    Collision.Dot(Collision.Sub(Pos(a), Pos(b)), Collision.Sub(Pos(a), Pos(b)))
  }

  /** The discs overlap or touch. */
  predicate Touching(a: Ball, b: Ball)
  {
    Dist2(a, b) <= (a.radius + b.radius) * (a.radius + b.radius)
  }

  /** Touching discs with distinct centres have a positive total mass. */
  lemma MassesFit(a: Ball, b: Ball)
    requires Touching(a, b) && Dist2(a, b) > 0.0
    ensures Mass(a) >= 0.0 && Mass(b) >= 0.0 && Mass(a) + Mass(b) > 0.0
  {
    assert (a.radius + b.radius) * (a.radius + b.radius) > 0.0;
    if a.radius == 0.0 {
      assert b.radius != 0.0;
    }
  }

  /** The push that takes the first ball out of the second after a
      collision: along its new velocity, by the overlap of the two discs.
      A ball at rest is left where it is. */
  function Separate(a: Ball, otherRadius: real, r2: real, m: BallStep.Maths): (r: Ball)
    ensures r == a.(x := r.x, y := r.y)
    ensures (r.x - a.x) * a.vy == (r.y - a.y) * a.vx
    ensures m.sqrt(a.vx * a.vx + a.vy * a.vy) == 0.0 ==> r == a
  {
    var distance := a.radius + otherRadius - m.sqrt(r2);
    var speed := m.sqrt(a.vx * a.vx + a.vy * a.vy);
    if speed == 0.0 then a
    else
      Parallel(distance, speed, a.vx, a.vy);
      a.(x := a.x + distance * a.vx / speed, y := a.y + distance * a.vy / speed)
  }

  lemma Parallel(d: real, s: real, u: real, v: real)
    requires s != 0.0
    ensures (d * u / s) * v == (d * v / s) * u
  {
    assert d * u / s == (d / s) * u;
    assert d * v / s == (d / s) * v;
  }

  /** The velocity exchange of two balls (the first one is then pushed
      out of the second). Balls that do not touch, or whose centres
      coincide, are left alone. */
  function Collide(a: Ball, b: Ball, m: BallStep.Maths): (r: (Ball, Ball))
    ensures r.0 == a.(x := r.0.x, y := r.0.y, vx := r.0.vx, vy := r.0.vy)
    ensures r.1 == b.(vx := r.1.vx, vy := r.1.vy)
    ensures !Touching(a, b) || Dist2(a, b) == 0.0 ==> r == (a, b)
    // total momentum is conserved
    ensures Collision.Plus(Collision.Momentum(Mass(a), Vel(r.0)), Collision.Momentum(Mass(b), Vel(r.1)))
         == Collision.Plus(Collision.Momentum(Mass(a), Vel(a)), Collision.Momentum(Mass(b), Vel(b)))
    // the relative velocity along the line of centres is reversed
    ensures Touching(a, b) && Dist2(a, b) > 0.0 ==>
              (Collision.Dot(Collision.Sub(Vel(r.0), Vel(r.1)), Collision.Sub(Pos(a), Pos(b)))
               == -Collision.Dot(Collision.Sub(Vel(a), Vel(b)), Collision.Sub(Pos(a), Pos(b))))
  {
    if Touching(a, b) && Dist2(a, b) > 0.0 then
      MassesFit(a, b);
      var v := Collision.Exchange(Pos(a), Vel(a), Mass(a), Pos(b), Vel(b), Mass(b));
      var a1 := a.(vx := v.0.x, vy := v.0.y);
      (Separate(a1, b.radius, Dist2(a, b), m), b.(vx := v.1.x, vy := v.1.y))
    else (a, b)
  }

  /** Balls at rest stay at rest: they exchange nothing and are not pushed
      apart. */
  lemma CollideAtRest(a: Ball, b: Ball, m: BallStep.Maths)
    ensures BallMotion(a) == Still && BallMotion(b) == Still ==>
              BallMotion(Collide(a, b, m).0) == Still && BallMotion(Collide(a, b, m).1) == Still
  {
    if Touching(a, b) && Dist2(a, b) > 0.0 {
      MassesFit(a, b);
      Collision.ExchangeTogether(Pos(a), Vel(a), Mass(a), Pos(b), Vel(b), Mass(b));
    }
  }

  /** The collision is elastic: kinetic energy is conserved. */
  lemma CollideKeepsEnergy(a: Ball, b: Ball, m: BallStep.Maths)
    ensures
      var r := Collide(a, b, m);
      (Collision.Energy2(Mass(a), Vel(r.0)) + Collision.Energy2(Mass(b), Vel(r.1))
       == Collision.Energy2(Mass(a), Vel(a)) + Collision.Energy2(Mass(b), Vel(b)))
  {
    if Touching(a, b) && Dist2(a, b) > 0.0 {
      MassesFit(a, b);
      Collision.ExchangeKeepsEnergy(Pos(a), Vel(a), Mass(a), Pos(b), Vel(b), Mass(b));
    }
  }

  /** Two ball lists hold the same bodies, in the same order: identities,
      sizes, accelerations and pause caches agree; only positions and
      velocities may differ. */
  predicate SameBodies(s: seq<Ball>, t: seq<Ball>)
  {
    |s| == |t| && forall k :: 0 <= k < |s| ==> BallStep.Kept(s[k], t[k])
  }

  lemma SameBodiesIds(s: seq<Ball>, t: seq<Ball>)
    requires SameBodies(s, t)
    ensures Ids(s) == Ids(t)
  {
    assert forall k :: 0 <= k < |s| ==> Ids(s)[k] == Ids(t)[k];
  }

  /** The inner loop of the collision pass: ball `i` against every later
      ball, from `j` on. */
  function CollideWith(w: World, i: nat, j: nat, m: BallStep.Maths): (r: World)
    requires i < j
    ensures r == w.(balls := r.balls)
    ensures SameBodies(r.balls, w.balls)
    ensures forall k :: 0 <= k < |w.balls| && k != i ==> Pos(r.balls[k]) == Pos(w.balls[k])
    ensures forall k :: 0 <= k < i && k < |w.balls| ==> r.balls[k] == w.balls[k]
    decreases |w.balls| - j
  {
    if j >= |w.balls| then w
    else CollideWith(CollideStep(w, i, j, m), i, j + 1, m)
  }

  /** One iteration of the inner loop: balls `i` and `j` collide. */
  function CollideStep(w: World, i: nat, j: nat, m: BallStep.Maths): (r: World)
    requires i < j < |w.balls|
    ensures r == w.(balls := r.balls)
    ensures SameBodies(r.balls, w.balls)
    ensures forall k :: 0 <= k < |w.balls| && k != i ==> Pos(r.balls[k]) == Pos(w.balls[k])
    ensures forall k :: 0 <= k < |w.balls| && k != i && k != j ==> r.balls[k] == w.balls[k]
  {
    var p := Collide(w.balls[i], w.balls[j], m);
    w.(balls := w.balls[i := p.0][j := p.1])
  }

  /** The components of a ball's momentum. */
  function MomentumX(b: Ball): real { Mass(b) * b.vx }

  function MomentumY(b: Ball): real { Mass(b) * b.vy }

  /** The total of a per-ball quantity over a ball list. */
  function Total(balls: seq<Ball>, f: Ball -> real): real
  {
    if |balls| == 0 then 0.0 else f(balls[0]) + Total(balls[1..], f)
  }

  /** Replacing one ball changes a total by the difference. */
  lemma {:induction false} TotalUpdate(s: seq<Ball>, k: nat, b: Ball, f: Ball -> real)
    requires k < |s|
    ensures Total(s[k := b], f) == Total(s, f) - f(s[k]) + f(b)
    decreases |s|
  {
    if k > 0 {
      assert s[k := b][1..] == s[1..][k - 1 := b];
      TotalUpdate(s[1..], k - 1, b, f);
    } else {
      assert s[k := b][1..] == s[1..];
    }
  }

  /** Replacing two balls by two with the same joint share keeps a total. */
  lemma PairKeepsTotal(s: seq<Ball>, i: nat, j: nat, a: Ball, b: Ball, f: Ball -> real)
    requires i < j < |s| && f(a) + f(b) == f(s[i]) + f(s[j])
    ensures Total(s[i := a][j := b], f) == Total(s, f)
  {
    TotalUpdate(s, i, a, f);
    TotalUpdate(s[i := a], j, b, f);
  }

  /** A pair of balls of unchanged sizes and unchanged total momentum
      keeps the sum of each momentum component. */
  lemma PairMomenta(a: Ball, b: Ball, p: (Ball, Ball))
    requires p.0.radius == a.radius && p.1.radius == b.radius
    requires Collision.Plus(Collision.Momentum(Mass(a), Vel(p.0)), Collision.Momentum(Mass(b), Vel(p.1)))
          == Collision.Plus(Collision.Momentum(Mass(a), Vel(a)), Collision.Momentum(Mass(b), Vel(b)))
    ensures MomentumX(p.0) + MomentumX(p.1) == MomentumX(a) + MomentumX(b)
    ensures MomentumY(p.0) + MomentumY(p.1) == MomentumY(a) + MomentumY(b)
  {
    MomentumParts(Mass(a), Mass(b), Vel(p.0), Vel(p.1), Vel(a), Vel(b));
    Scale(Mass(p.0), Mass(a), p.0.vx);
    Scale(Mass(p.0), Mass(a), p.0.vy);
    Scale(Mass(p.1), Mass(b), p.1.vx);
    Scale(Mass(p.1), Mass(b), p.1.vy);
  }

  lemma Scale(m1: real, m2: real, v: real)
    requires m1 == m2
    ensures m1 * v == m2 * v
  {
  }

  /** Equal total momenta, component by component. */
  lemma MomentumParts(m1: real, m2: real, u1: Collision.Vec, u2: Collision.Vec,
                      v1: Collision.Vec, v2: Collision.Vec)
    requires Collision.Plus(Collision.Momentum(m1, u1), Collision.Momentum(m2, u2))
          == Collision.Plus(Collision.Momentum(m1, v1), Collision.Momentum(m2, v2))
    ensures m1 * u1.x + m2 * u2.x == m1 * v1.x + m2 * v2.x
    ensures m1 * u1.y + m2 * u2.y == m1 * v1.y + m2 * v2.y
  {
  }

  lemma CollideStepKeepsMomentum(w: World, i: nat, j: nat, m: BallStep.Maths)
    requires i < j < |w.balls|
    ensures Total(CollideStep(w, i, j, m).balls, MomentumX) == Total(w.balls, MomentumX)
    ensures Total(CollideStep(w, i, j, m).balls, MomentumY) == Total(w.balls, MomentumY)
  {
    var p := Collide(w.balls[i], w.balls[j], m);
    PairMomenta(w.balls[i], w.balls[j], p);
    PairKeepsTotal(w.balls, i, j, p.0, p.1, MomentumX);
    PairKeepsTotal(w.balls, i, j, p.0, p.1, MomentumY);
  }

  /** The collision pass of one ball keeps the total momentum of all balls. */
  lemma {:induction false} CollideWithKeepsMomentum(w: World, i: nat, j: nat, m: BallStep.Maths)
    requires i < j
    ensures Total(CollideWith(w, i, j, m).balls, MomentumX) == Total(w.balls, MomentumX)
    ensures Total(CollideWith(w, i, j, m).balls, MomentumY) == Total(w.balls, MomentumY)
    decreases |w.balls| - j
  {
    if j < |w.balls| {
      var w' := CollideStep(w, i, j, m);
      CollideStepKeepsMomentum(w, i, j, m);
      CollideWithKeepsMomentum(w', i, j + 1, m);
    }
  }

  /** The boundary check of the collision pass: a ball past the left edge
      scores for the right player, one past the right edge for the left
      player, and is deleted. */
  function Judge(w: World, i: nat, now: int, c: Canvas): (r: World)
    requires i < |w.balls|
    ensures w.balls[i].x < 0.0 ==>
              r.rightScore == w.rightScore + 1 && r.leftScore == w.leftScore &&
              r.balls == RemoveAt(w.balls, i) && r.spawnTs == now
    ensures w.balls[i].x > c.width ==>
              r.leftScore == w.leftScore + 1 && r.rightScore == w.rightScore &&
              r.balls == RemoveAt(w.balls, i) && r.spawnTs == now
    ensures 0.0 <= w.balls[i].x <= c.width ==> r == w
    ensures r == w.(balls := r.balls, objects := r.objects, spawnTs := r.spawnTs,
                    leftScore := r.leftScore, rightScore := r.rightScore)
  {
    if w.balls[i].x < 0.0 then DeleteBall(w.(rightScore := w.rightScore + 1), i, now)
    else if w.balls[i].x > c.width then DeleteBall(w.(leftScore := w.leftScore + 1), i, now)
    else w
  }

  /** The collision and scoring pass from ball `i` on. After a deletion the
      index still advances, so the ball that moved into the freed slot is
      neither collided as a first ball nor checked against the edges until
      the next frame. */
  function ScoreFrom(w: World, i: nat, now: int, c: Canvas, m: BallStep.Maths): (r: World)
    ensures r == w.(balls := r.balls, objects := r.objects, spawnTs := r.spawnTs,
                    leftScore := r.leftScore, rightScore := r.rightScore)
    ensures r.leftScore >= w.leftScore && r.rightScore >= w.rightScore
    // every point scored is a ball removed
    ensures |r.balls| <= |w.balls|
    ensures (r.leftScore - w.leftScore) + (r.rightScore - w.rightScore) == |w.balls| - |r.balls|
    ensures |r.balls| < |w.balls| ==> r.spawnTs == now
    ensures |r.balls| == |w.balls| ==> r.spawnTs == w.spawnTs
    decreases |w.balls| - i
  {
    if i >= |w.balls| then w
    else
      var w1 := CollideWith(w, i, i + 1, m);
      ScoreFrom(Judge(w1, i, now, c), i + 1, now, c, m)
  }

  /** The whole collision and scoring pass of a frame. */
  function ScorePass(w: World, now: int, c: Canvas, m: BallStep.Maths): World
  {
    ScoreFrom(w, 0, now, c, m)
  }

  /** Balls at rest stay at rest through the inner loop of the collision
      pass. */
  lemma {:induction false} CollideWithAtRest(w: World, i: nat, j: nat, m: BallStep.Maths)
    requires i < j && BallsAtRest(w.balls)
    ensures BallsAtRest(CollideWith(w, i, j, m).balls)
    decreases |w.balls| - j
  {
    if j < |w.balls| {
      CollideAtRest(w.balls[i], w.balls[j], m);
      CollideWithAtRest(CollideStep(w, i, j, m), i, j + 1, m);
    }
  }

  lemma JudgeKeepsRest(w: World, i: nat, now: int, c: Canvas)
    requires i < |w.balls|
    ensures BallsAtRest(w.balls) ==> BallsAtRest(Judge(w, i, now, c).balls)
  {
    var r := Judge(w, i, now, c);
    if BallsAtRest(w.balls) && r.balls != w.balls {
      assert forall j :: 0 <= j < |r.balls| ==> r.balls[j] == w.balls[if j < i then j else j + 1];
    }
  }

  /** Collisions and deletions set no ball at rest moving. */
  lemma {:induction false} ScoreAtRest(w: World, i: nat, now: int, c: Canvas, m: BallStep.Maths)
    requires BallsAtRest(w.balls)
    ensures BallsAtRest(ScoreFrom(w, i, now, c, m).balls)
    decreases |w.balls| - i
  {
    if i < |w.balls| {
      var w2 := Judge(CollideWith(w, i, i + 1, m), i, now, c);
      ScoreStepAtRest(w, i, now, c, m);
      ScoreAtRest(w2, i + 1, now, c, m);
    }
  }

  /** One round of the collision pass sets no ball at rest moving. */
  lemma ScoreStepAtRest(w: World, i: nat, now: int, c: Canvas, m: BallStep.Maths)
    requires i < |w.balls| && BallsAtRest(w.balls)
    ensures BallsAtRest(Judge(CollideWith(w, i, i + 1, m), i, now, c).balls)
  {
    CollideWithAtRest(w, i, i + 1, m);
    JudgeKeepsRest(CollideWith(w, i, i + 1, m), i, now, c);
  }

  /** A ball list whose balls all fit between floor and ceiling. */
  predicate Fits(balls: seq<Ball>, c: Canvas)
  {
    forall k :: 0 <= k < |balls| ==> 2.0 * balls[k].radius <= c.height
  }

  /** The collision pass keeps the invariant. */
  lemma CollideWithKeepsWf(w: World, i: nat, j: nat, c: Canvas, m: BallStep.Maths)
    requires Wf(w) && i < j
    ensures Wf(CollideWith(w, i, j, m))
    ensures Fits(w.balls, c) ==> Fits(CollideWith(w, i, j, m).balls, c)
  {
    SameBodiesIds(CollideWith(w, i, j, m).balls, w.balls);
  }

  /** The boundary check keeps the invariant, and balls that fit the canvas. */
  lemma JudgeKeepsWf(w: World, i: nat, now: int, c: Canvas)
    requires Wf(w) && i < |w.balls|
    ensures Wf(Judge(w, i, now, c))
    ensures Fits(w.balls, c) ==> Fits(Judge(w, i, now, c).balls, c)
  {
    var r := Judge(w, i, now, c);
    if w.balls[i].x < 0.0 {
      DeleteKeepsWf(w.(rightScore := w.rightScore + 1), i, now);
    } else if w.balls[i].x > c.width {
      DeleteKeepsWf(w.(leftScore := w.leftScore + 1), i, now);
    }
    if r.balls != w.balls {
      forall j | 0 <= j < |r.balls|
        ensures r.balls[j].radius == w.balls[if j < i then j else j + 1].radius
      {
      }
    }
  }

  /** The collision and scoring pass keeps the invariant, and balls that fit
      the canvas. */
  lemma {:induction false} ScoreKeepsWf(w: World, i: nat, now: int, c: Canvas, m: BallStep.Maths)
    requires Wf(w)
    ensures Wf(ScoreFrom(w, i, now, c, m))
    ensures Fits(w.balls, c) ==> Fits(ScoreFrom(w, i, now, c, m).balls, c)
    decreases |w.balls| - i
  {
    if i < |w.balls| {
      ScoreStepKeepsWf(w, i, now, c, m);
      ScoreKeepsWf(Judge(CollideWith(w, i, i + 1, m), i, now, c), i + 1, now, c, m);
    }
  }

  /** So does one round of it. */
  lemma ScoreStepKeepsWf(w: World, i: nat, now: int, c: Canvas, m: BallStep.Maths)
    requires Wf(w) && i < |w.balls|
    ensures Wf(Judge(CollideWith(w, i, i + 1, m), i, now, c))
    ensures Fits(w.balls, c) ==> Fits(Judge(CollideWith(w, i, i + 1, m), i, now, c).balls, c)
  {
    CollideWithKeepsWf(w, i, i + 1, c, m);
    JudgeKeepsWf(CollideWith(w, i, i + 1, m), i, now, c);
  }

  /** The deletion quirk: of two balls past the left edge that do not touch,
      only the first is scored in this frame; the second moves into its
      slot, the index moves on, and it stays in play, still past the edge,
      until the next frame. */
  lemma SlotSkipped(w: World, now: int, c: Canvas, m: BallStep.Maths)
    requires |w.balls| == 2 && w.balls[0].x < 0.0 && w.balls[1].x < 0.0
    requires !Touching(w.balls[0], w.balls[1])
    ensures ScorePass(w, now, c, m).rightScore == w.rightScore + 1
    ensures ScorePass(w, now, c, m).balls == [w.balls[1]]
  {
    CollideApart(w, m);
    var w1 := Judge(w, 0, now, c);
    assert w1.balls == [w.balls[1]];
    assert ScoreFrom(w1, 1, now, c, m) == w1;
  }

  /** Two balls that do not touch leave the collision pass of the first
      unchanged. */
  lemma CollideApart(w: World, m: BallStep.Maths)
    requires |w.balls| == 2 && !Touching(w.balls[0], w.balls[1])
    ensures CollideWith(w, 0, 1, m) == w
  {
    assert CollideStep(w, 0, 1, m) == w;
  }

  /** Step every ball with the given identity. */
  function StepOnId(balls: seq<Ball>, id: nat, paddles: seq<Paddle>, dt: real, c: Canvas,
                    m: BallStep.Maths): (r: seq<Ball>)
    requires BallStep.Upright(paddles)
    ensures |r| == |balls|
    ensures forall j :: 0 <= j < |balls| ==>
              r[j] == if balls[j].id == id then BallStep.Update(balls[j], paddles, dt, c, m) else balls[j]
  {
    seq(|balls|, j requires 0 <= j < |balls| =>
      if balls[j].id == id then BallStep.Update(balls[j], paddles, dt, c, m) else balls[j])
  }

  /** `obj.update(elapsedSec)` for the object a reference designates. */
  function UpdateRef(w: World, ref: Ref, dt: real, now: int, c: Canvas, m: BallStep.Maths): World
    requires BallStep.Upright(w.paddles)
  {
    match ref
    case BallRef(id) => w.(balls := StepOnId(w.balls, id, w.paddles, dt, c, m))
    case PaddleRef(k) =>
      if k < |w.paddles| then
        w.(paddles := w.paddles[k := PaddleStep.Update(w.paddles[k], dt, now, w.paused, w.balls, c)])
      else w
  }

  /** The object loop of the frame: every object of the list, in order,
      steps by the elapsed time; each sees the world as the previous ones
      left it. Only positions, velocities and controller clocks change. */
  function UpdateObjects(w: World, refs: seq<Ref>, dt: real, now: int, c: Canvas, m: BallStep.Maths): (r: World)
    requires BallStep.Upright(w.paddles)
    ensures r == w.(balls := r.balls, paddles := r.paddles)
    ensures SameBodies(r.balls, w.balls)
    ensures |r.paddles| == |w.paddles|
    ensures forall k :: 0 <= k < |w.paddles| ==>
              r.paddles[k].h == w.paddles[k].h && r.paddles[k].w == w.paddles[k].w
    decreases |refs|
  {
    if |refs| == 0 then w
    else UpdateObjects(UpdateRef(w, refs[0], dt, now, c, m), refs[1..], dt, now, c, m)
  }

  /** While the game is paused, bodies at rest stay at rest through the
      object loop: no paddle controller runs, and a ball at rest among
      paddles at rest stays where the paddle loop and the walls leave it. */
  lemma {:induction false} UpdateAtRest(w: World, refs: seq<Ref>, dt: real, now: int, c: Canvas,
                                        m: BallStep.Maths)
    requires BallStep.Upright(w.paddles)
    requires w.paused && BallsAtRest(w.balls) && PaddlesAtRest(w.paddles)
    ensures
      var r := UpdateObjects(w, refs, dt, now, c, m);
      BallsAtRest(r.balls) && PaddlesAtRest(r.paddles)
    decreases |refs|
  {
    if |refs| > 0 {
      var w1 := UpdateRef(w, refs[0], dt, now, c, m);
      assert BallStep.Level(w.paddles) by {
        forall k | 0 <= k < |w.paddles| ensures w.paddles[k].vy == 0.0 {
          assert PaddleVelocity(w.paddles[k]) == (0.0, 0.0);
        }
      }
      UpdateAtRest(w1, refs[1..], dt, now, c, m);
    }
  }

  /** The ball lies between floor and ceiling. */
  predicate InBand(b: Ball, c: Canvas)
  {
    b.radius <= b.y <= c.height - b.radius
  }

  /** A ball without acceleration that fits the canvas ends the object loop
      between floor and ceiling if it was stepped at all, and untouched if
      not. */
  lemma {:induction false} UpdateBallInBand(w: World, refs: seq<Ref>, dt: real, now: int, c: Canvas,
                                            m: BallStep.Maths, j: nat)
    requires BallStep.Upright(w.paddles) && j < |w.balls|
    requires w.balls[j].ay == 0.0 && 2.0 * w.balls[j].radius <= c.height
    ensures Count(refs, BallRef(w.balls[j].id)) > 0 ==> InBand(UpdateObjects(w, refs, dt, now, c, m).balls[j], c)
    ensures Count(refs, BallRef(w.balls[j].id)) == 0 ==> UpdateObjects(w, refs, dt, now, c, m).balls[j] == w.balls[j]
    decreases |refs|
  {
    if |refs| > 0 {
      var w1 := UpdateRef(w, refs[0], dt, now, c, m);
      assert BallStep.Kept(w1.balls[j], w.balls[j]);
      if refs[0] == BallRef(w.balls[j].id) {
        assert InBand(w1.balls[j], c);
      } else {
        assert w1.balls[j] == w.balls[j];
      }
      UpdateBallInBand(w1, refs[1..], dt, now, c, m, j);
    }
  }

  /** A paddle whose track can hold it ends the object loop on its track if
      it was stepped at all, and untouched if not. */
  lemma {:induction false} UpdatePaddleOnTrack(w: World, refs: seq<Ref>, dt: real, now: int, c: Canvas,
                                               m: BallStep.Maths, k: nat)
    requires BallStep.Upright(w.paddles) && k < |w.paddles|
    requires PaddleStep.FitsTrack(w.paddles[k], c)
    ensures Count(refs, PaddleRef(k)) > 0 ==>
              PaddleStep.OnTrack(UpdateObjects(w, refs, dt, now, c, m).paddles[k].y, w.paddles[k], c)
    ensures Count(refs, PaddleRef(k)) == 0 ==> UpdateObjects(w, refs, dt, now, c, m).paddles[k] == w.paddles[k]
    decreases |refs|
  {
    if |refs| > 0 {
      var w1 := UpdateRef(w, refs[0], dt, now, c, m);
      if refs[0] == PaddleRef(k) {
        assert PaddleStep.OnTrack(w1.paddles[k].y, w.paddles[k], c);
      } else {
        assert w1.paddles[k] == w.paddles[k];
      }
      UpdatePaddleOnTrack(w1, refs[1..], dt, now, c, m, k);
    }
  }

  /** `update()` after the clock has been read: the spawn gate, the
      collision and scoring pass, then the object loop. */
  function Step(w: World, now: int, dt: real, d: Draw, c: Canvas, m: BallStep.Maths): (r: World)
    requires BallStep.Upright(w.paddles)
    ensures r.paused == w.paused && r.cpuLeft == w.cpuLeft
    ensures r.leftScore >= w.leftScore && r.rightScore >= w.rightScore
    ensures |r.paddles| == |w.paddles|
    ensures forall k :: 0 <= k < |w.paddles| ==>
              r.paddles[k].w == w.paddles[k].w && r.paddles[k].h == w.paddles[k].h
  {
    var w1 := Serve(w, now, d, c, m);
    var w2 := ScorePass(w1, now, c, m);
    UpdateObjects(w2, w2.objects, dt, now, c, m)
  }

  /** A frame of a frozen game leaves every body at rest. The frame still
      runs: a ball at rest may be put on a paddle face or on the floor, and
      a ball past an edge is still scored and removed. */
  lemma StepKeepsFrozen(w: World, now: int, dt: real, d: Draw, c: Canvas, m: BallStep.Maths)
    requires BallStep.Upright(w.paddles) && Frozen(w)
    ensures Frozen(Step(w, now, dt, d, c, m))
  {
    if w.paused {
      var w2 := ScorePass(w, now, c, m);
      ScoreAtRest(w, 0, now, c, m);
      UpdateAtRest(w2, w2.objects, dt, now, c, m);
    }
  }

  /** A frame keeps the invariant, and balls that fit between floor and
      ceiling keep fitting (a served ball does). */
  lemma StepKeepsWf(w: World, now: int, dt: real, d: Draw, c: Canvas, m: BallStep.Maths)
    requires Wf(w)
    ensures Wf(Step(w, now, dt, d, c, m))
    ensures Fits(w.balls, c) ==> Fits(Step(w, now, dt, d, c, m).balls, c)
  {
    var w1 := Serve(w, now, d, c, m);
    SpawnKeepsWf(w, d, c, m);
    ServeKeepsFits(w, now, d, c, m);
    var w2 := ScorePass(w1, now, c, m);
    ScoreKeepsWf(w1, 0, now, c, m);
    UpdateKeepsWf(w2, w2.objects, dt, now, c, m);
  }

  /** A served ball fits between floor and ceiling. */
  lemma ServeKeepsFits(w: World, now: int, d: Draw, c: Canvas, m: BallStep.Maths)
    ensures Fits(w.balls, c) ==> Fits(Serve(w, now, d, c, m).balls, c)
  {
    var r := Serve(w, now, d, c, m);
    if Fits(w.balls, c) && r != w {
      forall j | 0 <= j < |r.balls|
        ensures 2.0 * r.balls[j].radius <= c.height
      {
        if j < |w.balls| {
          assert r.balls[j] == r.balls[..|w.balls|][j];
        }
      }
    }
  }

  /** The object loop keeps the invariant, and balls that fit the canvas. */
  lemma UpdateKeepsWf(w: World, refs: seq<Ref>, dt: real, now: int, c: Canvas, m: BallStep.Maths)
    requires Wf(w)
    ensures Wf(UpdateObjects(w, refs, dt, now, c, m))
    ensures Fits(w.balls, c) ==> Fits(UpdateObjects(w, refs, dt, now, c, m).balls, c)
  {
    var r := UpdateObjects(w, refs, dt, now, c, m);
    SameBodiesIds(r.balls, w.balls);
    forall j | 0 <= j < |r.balls|
      ensures r.balls[j].id < r.nextId && r.balls[j].ay == 0.0 && r.balls[j].ayCached == 0.0
      ensures r.balls[j].radius == w.balls[j].radius
    {
      assert BallStep.Kept(r.balls[j], w.balls[j]);
    }
    assert BallStep.Upright(r.paddles);
  }

  /** After a frame every ball lies between floor and ceiling, and every
      paddle whose track can hold it lies on its track, whatever the elapsed
      time, the clock and the draws. */
  lemma StepConfines(w: World, now: int, dt: real, d: Draw, c: Canvas, m: BallStep.Maths)
    requires Wf(w) && Fits(w.balls, c)
    ensures
      var r := Step(w, now, dt, d, c, m);
      && (forall j :: 0 <= j < |r.balls| ==> InBand(r.balls[j], c))
      && (forall k :: 0 <= k < |r.paddles| && PaddleStep.FitsTrack(r.paddles[k], c) ==>
            PaddleStep.OnTrack(r.paddles[k].y, r.paddles[k], c))
  {
    var w1 := Serve(w, now, d, c, m);
    SpawnKeepsWf(w, d, c, m);
    assert Fits(w1.balls, c);
    var w2 := ScorePass(w1, now, c, m);
    ScoreKeepsWf(w1, 0, now, c, m);
    var r := Step(w, now, dt, d, c, m);
    forall j | 0 <= j < |r.balls|
      ensures InBand(r.balls[j], c)
    {
      BallOnce(w2, j);
      UpdateBallInBand(w2, w2.objects, dt, now, c, m, j);
    }
    forall k | 0 <= k < |r.paddles| && PaddleStep.FitsTrack(r.paddles[k], c)
      ensures PaddleStep.OnTrack(r.paddles[k].y, r.paddles[k], c)
    {
      PaddleOnce(w2, k);
      UpdatePaddleOnTrack(w2, w2.objects, dt, now, c, m, k);
    }
  }

  /** Object-list references to the given balls, in order. */
  function BallRefs(balls: seq<Ball>): (r: seq<Ref>)
    ensures |r| == |balls| && forall j :: 0 <= j < |balls| ==> r[j] == BallRef(balls[j].id)
    ensures BallIds(r) == Ids(balls) && PaddleIndices(r) == []
  {
    if |balls| == 0 then []
    else
      var rest := BallRefs(balls[1..]);
      assert ([BallRef(balls[0].id)] + rest)[1..] == rest;
      [BallRef(balls[0].id)] + rest
  }

  /** A paddle as `startGame` builds it: standing still, its controller
      clock read at `now`. */
  function NewPaddle(x: real, y: real, w: real, h: real, cpu: bool, now: int): (p: Paddle)
    ensures p.x == x && p.y == y && p.w == w && p.h == h && p.cpu == cpu
    // it stands still, and a pause before it moves caches no motion
    ensures PaddleVelocity(p) == (0.0, 0.0) && PaddleCache(p) == PaddleVelocity(p)
    // its controller counts the reaction time from its creation
    ensures p.lastChangeMs == now
  {
    Paddle(x, y, 0.0, 0.0, w, h, 0.0, 0.0, cpu, now)
  }

  /** The paddles and object list `startGame` sets up, before it toggles
      the pause. */
  function Lineup(w: World, single: bool, now: int, c: Canvas): (r: World)
    requires w.paddles == []
    ensures r == w.(cpuLeft := single, paddles := r.paddles, objects := r.objects)
    ensures |r.paddles| == 2 && r.paddles[0].cpu == single && !r.paddles[1].cpu
    ensures r.paddles[0].x + r.paddles[0].w < r.paddles[1].x
    ensures BallIds(r.objects) == Ids(w.balls) && PaddleIndices(r.objects) == [0, 1]
    // the object list is the balls, in order, then the left and the right paddle
    ensures |r.objects| == |w.balls| + 2
    ensures forall j :: 0 <= j < |w.balls| ==> r.objects[j] == BallRef(w.balls[j].id)
    ensures r.objects[|w.balls|] == PaddleRef(0) && r.objects[|w.balls| + 1] == PaddleRef(1)
    ensures BallStep.Upright(r.paddles)
    // a canvas at most 17 times wider than tall has room for both paddles
    ensures c.width <= 17.0 * c.height ==>
              forall k :: 0 <= k < 2 ==>
                PaddleStep.FitsTrack(r.paddles[k], c) && PaddleStep.OnTrack(r.paddles[k].y, r.paddles[k], c)
  {
    w.(cpuLeft := single, paddles := LineupPaddles(single, now, c), objects := LineupRefs(w.balls))
  }

  /** The two paddles: 2.5% of the width wide and 15% of the height tall at
      mid-height, three paddle widths in from each edge. */
  function LineupPaddles(single: bool, now: int, c: Canvas): (r: seq<Paddle>)
    ensures |r| == 2 && r[0].cpu == single && !r[1].cpu
    ensures r[0].x + r[0].w < r[1].x
    ensures BallStep.Upright(r)
    ensures c.width <= 17.0 * c.height ==>
              forall k :: 0 <= k < 2 ==> PaddleStep.FitsTrack(r[k], c) && PaddleStep.OnTrack(r[k].y, r[k], c)
  {
    var rectWidth := 0.025 * c.width;
    var rectHeight := 0.15 * c.height;
    var rectX := 0.025 * c.width;
    var rectY := 0.5 * c.height - 0.5 * rectHeight;
    var left := NewPaddle(3.0 * rectX, rectY, rectWidth, rectHeight, single, now);
    var right := NewPaddle(c.width - rectWidth - 3.0 * rectX, rectY, rectWidth, rectHeight, false, now);
    [left, right]
  }

  /** The object list: the balls, in order, then the left and the right
      paddle. */
  function LineupRefs(balls: seq<Ball>): (r: seq<Ref>)
    ensures |r| == |balls| + 2
    ensures forall j :: 0 <= j < |balls| ==> r[j] == BallRef(balls[j].id)
    ensures r[|balls|] == PaddleRef(0) && r[|balls| + 1] == PaddleRef(1)
    ensures BallIds(r) == Ids(balls) && PaddleIndices(r) == [0, 1]
  {
    var tail := [PaddleRef(0), PaddleRef(1)];
    BallIdsConcat(BallRefs(balls), tail);
    PaddleIndicesConcat(BallRefs(balls), tail);
    assert BallIds(tail) == [] && PaddleIndices(tail) == [0, 1];
    BallRefs(balls) + tail
  }

  /** A game started from a well-formed world is frozen if paused. */
  lemma StartKeepsFrozen(w: World, single: bool, now: int, c: Canvas)
    requires Wf(w) && w.paddles == []
    ensures Frozen(StartGame(w, single, now, c))
  {
    LineupKeepsWf(w, single, now, c);
    Pause.ToggleFreezes(Lineup(w, single, now, c));
  }

  /** Lining up the paddles keeps the invariant. */
  lemma LineupKeepsWf(w: World, single: bool, now: int, c: Canvas)
    requires Wf(w) && w.paddles == []
    ensures Wf(Lineup(w, single, now, c))
  {
    var w1 := Lineup(w, single, now, c);
    TwoPaddlesConsistent(w.balls, w1.paddles, w1.objects, w.nextId);
  }

  /** The invariant of a world whose object list refers to its balls and to
      its two paddles. */
  lemma TwoPaddlesConsistent(balls: seq<Ball>, paddles: seq<Paddle>, objects: seq<Ref>, nextId: nat)
    requires Distinct(Ids(balls))
    requires forall i :: 0 <= i < |balls| ==> balls[i].id < nextId
    requires forall i :: 0 <= i < |balls| ==> balls[i].ay == 0.0 && balls[i].ayCached == 0.0
    requires BallIds(objects) == Ids(balls) && PaddleIndices(objects) == [0, 1]
    requires |paddles| == 2 && BallStep.Upright(paddles)
    ensures Consistent(balls, paddles, objects, nextId)
  {
    assert forall k :: k in PaddleIndices(objects) ==> k < |paddles|;
  }

  /** A game started from the loaded state is running and well formed. */
  lemma StartFromInit(load: int, single: bool, now: int, c: Canvas)
    ensures !StartGame(Init(load), single, now, c).paused
    ensures Wf(StartGame(Init(load), single, now, c))
  {
    StartKeepsWf(Init(load), single, now, c);
  }

  /** `startGame(isSinglePlayer)`, pressed on the start screen (the start
      buttons, its only callers, are gone once it has run, so the game has
      no paddles yet): line up, toggle the pause, arm the spawn timer. */
  function StartGame(w: World, single: bool, now: int, c: Canvas): (r: World)
    requires w.paddles == []
    ensures r.paused == !w.paused && r.cpuLeft == single && r.spawnTs == now
    ensures |r.paddles| == 2 && r.paddles[0].cpu == single && !r.paddles[1].cpu
    ensures r.paddles[0].x + r.paddles[0].w < r.paddles[1].x
    ensures Ids(r.balls) == Ids(w.balls)
    ensures c.width <= 17.0 * c.height ==>
              forall k :: 0 <= k < 2 ==>
                PaddleStep.FitsTrack(r.paddles[k], c) && PaddleStep.OnTrack(r.paddles[k].y, r.paddles[k], c)
  {
    var w1 := Lineup(w, single, now, c);
    var r := Pause.TogglePaused(w1).(spawnTs := now);
    assert Pause.SamePaddle(r.paddles[0], w1.paddles[0]) && Pause.SamePaddle(r.paddles[1], w1.paddles[1]);
    r
  }

  /** A game started from a well-formed world is well formed. */
  lemma StartKeepsWf(w: World, single: bool, now: int, c: Canvas)
    requires Wf(w) && w.paddles == []
    ensures Wf(StartGame(w, single, now, c))
  {
    LineupKeepsWf(w, single, now, c);
    Pause.ToggleKeepsWf(Lineup(w, single, now, c));
  }
}

=== FILE: input.dfy ===
/** The keyboard handlers. `w`/`s` steer the left paddle (unless the
    computer plays it), `i`/`k` and the up/down arrows the right one. A key
    press sets the paddle's vertical velocity, or, while the game is paused,
    the cached velocity it resumes with; releasing the key stops the paddle
    and clears the cache. Releasing `p` toggles the pause. The left paddle is
    the first of the paddle list and the right paddle the second, as
    `startGame` builds them. */
module Input {
  import opened Bodies
  import opened Roster
  import Pause

  datatype Key = KeyW | KeyS | KeyI | KeyK | ArrowUp | ArrowDown | KeyP | OtherKey

  /** What a steering key acts on: a paddle index and a direction, -1 up
      and +1 down (the canvas y axis points down). */
  datatype Binding = Unbound | Bound(paddle: nat, dir: real)

  /** The steering keys; `w` and `s` do nothing while the computer plays
      the left paddle. */
  function Bind(key: Key, cpuLeft: bool): (b: Binding)
    ensures b.Bound? ==> (b.paddle == 0 || b.paddle == 1) && (b.dir == 1.0 || b.dir == -1.0)
    ensures b.Bound? && b.paddle == 0 <==> !cpuLeft && (key == KeyW || key == KeyS)
    ensures b.Bound? && b.paddle == 1 <==> key in {KeyI, KeyK, ArrowUp, ArrowDown}
    ensures b.Bound? ==> (b.dir < 0.0 <==> key in {KeyW, KeyI, ArrowUp})
  {
    match key
    case KeyW => if cpuLeft then Unbound else Bound(0, -1.0)
    case KeyS => if cpuLeft then Unbound else Bound(0, 1.0)
    case KeyI => Bound(1, -1.0)
    case ArrowUp => Bound(1, -1.0)
    case KeyK => Bound(1, 1.0)
    case ArrowDown => Bound(1, 1.0)
    case KeyP => Unbound
    case OtherKey => Unbound
  }

  /** The vertical velocity a paddle has while the game runs: its velocity,
      or while paused the cached one a resume restores. */
  function InPlay(p: Paddle, paused: bool): real
  {
    if paused then p.vyCached else p.vy
  }

  /** The `keydown` handler. Before the game has started there is no paddle
      to steer, and the handler changes nothing. */
  function KeyDown(w: World, key: Key, c: Canvas): (r: World)
    ensures r == w.(paddles := r.paddles) && |r.paddles| == |w.paddles|
    // only the bound paddle changes, and only in its velocity or its cache
    ensures forall k :: 0 <= k < |w.paddles| ==>
              if Bind(key, w.cpuLeft) == Unbound || k != Bind(key, w.cpuLeft).paddle then r.paddles[k] == w.paddles[k]
              else Pause.SamePaddle(r.paddles[k], w.paddles[k])
    // it then moves at paddle speed in the key's direction once the game runs
    ensures Bind(key, w.cpuLeft).Bound? && Bind(key, w.cpuLeft).paddle < |w.paddles| ==>
              InPlay(r.paddles[Bind(key, w.cpuLeft).paddle], w.paused) == Bind(key, w.cpuLeft).dir * PaddleSpeed(c)
    // what does not take effect until later is left as it was
    ensures Bind(key, w.cpuLeft).Bound? && Bind(key, w.cpuLeft).paddle < |w.paddles| ==>
              var k := Bind(key, w.cpuLeft).paddle;
              InPlay(r.paddles[k], !w.paused) == InPlay(w.paddles[k], !w.paused)
    // so a key pressed while paused moves nothing
    ensures Frozen(w) ==> Frozen(r)
  {
    match Bind(key, w.cpuLeft)
    case Unbound => w
    case Bound(k, dir) =>
      if k < |w.paddles| then
        var p := w.paddles[k];
        var v := dir * PaddleSpeed(c);
        w.(paddles := w.paddles[k := if w.paused then p.(vyCached := v) else p.(vy := v)])
      else w
  }

  /** The `keyup` handler: `p` toggles the pause; a steering key stops its
      paddle, now and after the next resume. */
  function KeyUp(w: World, key: Key): (r: World)
    ensures key == KeyP ==> r == Pause.TogglePaused(w)
    ensures key != KeyP ==> r == w.(paddles := r.paddles) && |r.paddles| == |w.paddles|
    ensures key != KeyP ==>
              forall k :: 0 <= k < |w.paddles| ==>
                if Bind(key, w.cpuLeft) == Unbound || k != Bind(key, w.cpuLeft).paddle then r.paddles[k] == w.paddles[k]
                else Pause.SamePaddle(r.paddles[k], w.paddles[k]) && r.paddles[k].vy == 0.0 && r.paddles[k].vyCached == 0.0
  {
    if key == KeyP then Pause.TogglePaused(w)
    else
      match Bind(key, w.cpuLeft)
      case Unbound => w
      case Bound(k, _) =>
        if k < |w.paddles| then w.(paddles := w.paddles[k := w.paddles[k].(vy := 0.0, vyCached := 0.0)])
        else w
  }

  /** A key press leaves the invariant of the world in place. */
  lemma KeyDownKeepsWf(w: World, key: Key, c: Canvas)
    requires Wf(w)
    ensures Wf(KeyDown(w, key, c))
  {
    var d := KeyDown(w, key, c);
    assert forall k :: 0 <= k < |d.paddles| ==> d.paddles[k].h == w.paddles[k].h;
  }

  /** So does a key release. */
  lemma KeyUpKeepsWf(w: World, key: Key)
    requires Wf(w)
    ensures Wf(KeyUp(w, key))
  {
    if key == KeyP {
      Pause.ToggleKeepsWf(w);
    } else {
      var u := KeyUp(w, key);
      assert forall k :: 0 <= k < |u.paddles| ==> u.paddles[k].h == w.paddles[k].h;
    }
  }

  /** Nor does a key release: `p` pauses every body or resumes the game, and
      a steering key stops its paddle. */
  lemma KeyUpKeepsFrozen(w: World, key: Key)
    requires Wf(w) && Frozen(w)
    ensures Frozen(KeyUp(w, key))
  {
    if key == KeyP {
      Pause.ToggleFreezes(w);
    }
  }

  /** A steering key pressed while paused takes effect on resume, and one
      pressed in play survives a pause and resume: either way the paddle is
      in play at paddle speed in the key's direction. */
  lemma PressTakesEffect(w: World, key: Key, c: Canvas)
    requires Wf(w)
    requires Bind(key, w.cpuLeft).Bound? && Bind(key, w.cpuLeft).paddle < |w.paddles|
    ensures
      var k := Bind(key, w.cpuLeft).paddle;
      var v := Bind(key, w.cpuLeft).dir * PaddleSpeed(c);
      var d := KeyDown(w, key, c);
      var live := if w.paused then Pause.TogglePaused(d) else Pause.TogglePaused(Pause.TogglePaused(d));
      !live.paused && live.paddles[k].vy == v
  {
    var d := KeyDown(w, key, c);
    KeyDownKeepsWf(w, key, c);
    if w.paused {
      Pause.ToggleActsOnce(d);
    } else {
      Pause.ToggleTwice(d);
    }
  }

  /** A released steering key stops its paddle for good: it is at rest now
      and after the next toggle of the pause, whichever way that goes. */
  lemma ReleaseStops(w: World, key: Key)
    requires Wf(w) && key != KeyP
    requires Bind(key, w.cpuLeft).Bound? && Bind(key, w.cpuLeft).paddle < |w.paddles|
    ensures
      var k := Bind(key, w.cpuLeft).paddle;
      var u := KeyUp(w, key);
      u.paddles[k].vy == 0.0 && Pause.TogglePaused(u).paddles[k].vy == 0.0
  {
    KeyUpKeepsWf(w, key);
    Pause.ToggleActsOnce(KeyUp(w, key));
  }
}

=== FILE: paddle_step.dfy ===
/** One frame of a paddle (`Rectangle.update`): the computer controller,
    which follows the first ball with a reaction-time delay, then the motion
    along the vertical track, clamped so that a margin of one paddle width is
    kept at the top and at the bottom of the canvas. */
module PaddleStep {
  import opened Bodies

  /** Velocity the controller aims for, given the height of the first ball:
      down when the ball is below the paddle, up when it is above, else hold. */
  function Target(p: Paddle, ballY: real, c: Canvas): (v: real)
    ensures v > 0.0 <==> ballY > p.y + p.h
    ensures v < 0.0 <==> ballY < p.y && ballY <= p.y + p.h
    ensures v == 0.0 || v == PaddleSpeed(c) || v == -PaddleSpeed(c)
  {
    if ballY > p.y + p.h then PaddleSpeed(c)
    else if ballY < p.y then -PaddleSpeed(c)
    else 0.0
  }

  /** The controller part of `Rectangle.update`. It only runs for a
      computer paddle while the game is not paused. With no ball in play it
      stops the paddle at once; otherwise it adopts the target velocity only
      when that differs from the current one and more than the reaction time
      has passed since the last change, which it then records. */
  function Control(p: Paddle, balls: seq<Ball>, now: int, paused: bool, c: Canvas): (r: Paddle)
    ensures r == p.(vy := r.vy, lastChangeMs := r.lastChangeMs)
    ensures paused || !p.cpu ==> r == p
    ensures !paused && p.cpu && |balls| == 0 ==> r == p.(vy := 0.0)
    // a velocity change in play happens only after the reaction time, and is recorded
    ensures |balls| > 0 && r.vy != p.vy ==>
              now - p.lastChangeMs > ReactionTimeMs && r.lastChangeMs == now
    ensures r.lastChangeMs != p.lastChangeMs ==> r.lastChangeMs == now && r.vy != p.vy
    // a change always heads for the ball
    ensures |balls| > 0 && r.vy != p.vy ==> r.vy == Target(p, balls[0].y, c)
    // once the reaction time has passed, the paddle follows its target
    ensures !paused && p.cpu && |balls| > 0 && now - p.lastChangeMs > ReactionTimeMs ==>
              r.vy == Target(p, balls[0].y, c)
  {
    if paused || !p.cpu then p
    else if |balls| > 0 then
      var newVy := Target(p, balls[0].y, c);
      if newVy != p.vy && now - p.lastChangeMs > ReactionTimeMs then
        p.(vy := newVy, lastChangeMs := now)
      else p
    else p.(vy := 0.0)
  }

  /** The paddle lies on its track: one paddle width clear of the top and of
      the bottom of the canvas. */
  predicate OnTrack(y: real, p: Paddle, c: Canvas)
  {
    p.w <= y && y + p.h <= c.height - p.w
  }

  /** The track is long enough to hold the paddle. */
  predicate FitsTrack(p: Paddle, c: Canvas)
  {
    p.h + 2.0 * p.w <= c.height
  }

  /** The motion part of `Rectangle.update`: advance by the velocity, then
      clamp to the track, the top margin being checked first. */
  function Move(p: Paddle, dt: real, c: Canvas): (r: Paddle)
    ensures r == p.(y := r.y)
    ensures FitsTrack(p, c) ==> OnTrack(r.y, p, c)
    ensures OnTrack(p.y + dt * p.vy, p, c) ==> r.y == p.y + dt * p.vy
    ensures p.y + dt * p.vy < p.w ==> r.y == p.w
    ensures p.y + dt * p.vy >= p.w && p.y + dt * p.vy + p.h > c.height - p.w ==>
              r.y == c.height - p.h - p.w
  {
    var y := p.y + dt * p.vy;
    if y < p.w then p.(y := p.w)
    else if y + p.h > c.height - p.w then p.(y := c.height - p.h - p.w)
    else p.(y := y)
  }

  /** `Rectangle.update(elapsedSec)`, the clock read `Date.now()` being `now`
      and `balls` the ball list of the game. */
  function Update(p: Paddle, dt: real, now: int, paused: bool, balls: seq<Ball>, c: Canvas): (r: Paddle)
    ensures r == p.(y := r.y, vy := r.vy, lastChangeMs := r.lastChangeMs)
    ensures FitsTrack(p, c) ==> OnTrack(r.y, p, c)
    ensures r.vy == Control(p, balls, now, paused, c).vy
    ensures OnTrack(p.y + dt * r.vy, p, c) ==> r.y == p.y + dt * r.vy
  {
    Move(Control(p, balls, now, paused, c), dt, c)
  }

  /** Confinement is kept over any number of frames: a paddle placed on a
      track long enough for it stays on it whatever its velocity, the frame
      times and the clock readings. */
  lemma {:induction false} StaysOnTrack(p: Paddle, frames: seq<(real, int)>, paused: bool,
                                        balls: seq<Ball>, c: Canvas)
    requires FitsTrack(p, c) && OnTrack(p.y, p, c)
    decreases |frames|
    ensures OnTrack(Run(p, frames, paused, balls, c).y, p, c)
  {
    if |frames| > 0 {
      var q := Update(p, frames[0].0, frames[0].1, paused, balls, c);
      StaysOnTrack(q, frames[1..], paused, balls, c);
    }
  }

  /** Several frames of one paddle in a row; each frame is an elapsed time
      and a clock reading. */
  function Run(p: Paddle, frames: seq<(real, int)>, paused: bool, balls: seq<Ball>, c: Canvas): (r: Paddle)
    ensures r.w == p.w && r.h == p.h
    decreases |frames|
  {
    if |frames| == 0 then p
    else Run(Update(p, frames[0].0, frames[0].1, paused, balls, c), frames[1..], paused, balls, c)
  }

  /** Two velocity changes of a computer paddle in play are more than the
      reaction time apart: right after a change made with a ball in play, a
      later frame within the reaction time keeps the velocity. (Stopping for
      want of a ball is immediate and is not recorded as a change.) */
  lemma Debounce(p: Paddle, balls: seq<Ball>, balls': seq<Ball>, t: int, t': int, c: Canvas)
    requires |balls| > 0 && |balls'| > 0
    requires Control(p, balls, t, false, c).vy != p.vy
    requires t' - t <= ReactionTimeMs
    ensures
      var q := Control(p, balls, t, false, c);
      Control(q, balls', t', false, c) == q
  {
  }

  /** A paddle already moving at its target velocity is left alone, however
      long ago its last change was. */
  lemma HoldsOnTarget(p: Paddle, balls: seq<Ball>, now: int, c: Canvas)
    requires |balls| > 0 && p.vy == Target(p, balls[0].y, c)
    ensures Control(p, balls, now, false, c) == p
  {
  }
}

=== FILE: pause.dfy ===
/** `togglePaused()`: flip the pause flag, then pause (or resume) every
    object of the object list, in list order. An object is acted on once per
    reference to it, so the lemmas first describe the effect of any object
    list, then specialise it to well-formed worlds where every body is
    referred to exactly once. */
module Pause {
  import opened Bodies
  import opened Seqs
  import opened Roster

  /** `obj.pause()` or `obj.resume()` on a ball. */
  function ActBall(b: Ball, pause: bool): Ball
  {
    if pause then PauseBall(b) else ResumeBall(b)
  }

  /** `obj.pause()` or `obj.resume()` on a paddle. */
  function ActPaddle(p: Paddle, pause: bool): Paddle
  {
    if pause then PausePaddle(p) else ResumePaddle(p)
  }

  /** A ball paused (or resumed) `n` times in a row. Repeating a resume
      changes nothing more; repeating a pause loses the saved motion. */
  function ActBallN(b: Ball, pause: bool, n: nat): (r: Ball)
    ensures SamePlace(r, b)
    ensures n == 0 ==> r == b
    ensures pause && n >= 1 ==> BallMotion(r) == Still
    ensures pause && n == 1 ==> BallCache(r) == BallMotion(b)
    ensures pause && n >= 2 ==> BallCache(r) == Still
    ensures !pause && n >= 1 ==> BallMotion(r) == BallCache(b) && BallCache(r) == BallCache(b)
    decreases n
  {
    if n == 0 then b else ActBallN(ActBall(b, pause), pause, n - 1)
  }

  /** A paddle paused (or resumed) `n` times in a row. */
  function ActPaddleN(p: Paddle, pause: bool, n: nat): (r: Paddle)
    ensures r.(vx := p.vx, vy := p.vy, vxCached := p.vxCached, vyCached := p.vyCached) == p
    ensures n == 0 ==> r == p
    ensures pause && n >= 1 ==> PaddleVelocity(r) == (0.0, 0.0)
    ensures pause && n == 1 ==> PaddleCache(r) == PaddleVelocity(p)
    ensures pause && n >= 2 ==> PaddleCache(r) == (0.0, 0.0)
    ensures !pause && n >= 1 ==> PaddleVelocity(r) == PaddleCache(p) && PaddleCache(r) == PaddleCache(p)
    decreases n
  {
    if n == 0 then p else ActPaddleN(ActPaddle(p, pause), pause, n - 1)
  }

  /** Two states of one paddle that differ at most in velocity and cache. */
  predicate SamePaddle(p: Paddle, q: Paddle)
  {
    p.(vx := q.vx, vy := q.vy, vxCached := q.vxCached, vyCached := q.vyCached) == q
  }

  /** Act on every ball with the given identity. */
  function ActOnId(balls: seq<Ball>, id: nat, pause: bool): (r: seq<Ball>)
    ensures |r| == |balls|
    ensures forall j :: 0 <= j < |balls| ==>
              r[j] == if balls[j].id == id then ActBall(balls[j], pause) else balls[j]
  {
    seq(|balls|, j requires 0 <= j < |balls| =>
      if balls[j].id == id then ActBall(balls[j], pause) else balls[j])
  }

  /** Act on the object a reference designates (none when it dangles). */
  function ApplyRef(w: World, ref: Ref, pause: bool): (r: World)
    ensures r == w.(balls := r.balls, paddles := r.paddles)
    ensures |r.balls| == |w.balls| && |r.paddles| == |w.paddles|
    ensures forall j :: 0 <= j < |w.balls| ==> SamePlace(r.balls[j], w.balls[j])
    ensures forall k :: 0 <= k < |w.paddles| ==> SamePaddle(r.paddles[k], w.paddles[k])
    // a dangling reference acts on nothing
    ensures ref.PaddleRef? && ref.index >= |w.paddles| ==> r == w
  {
    match ref
    case BallRef(id) => w.(balls := ActOnId(w.balls, id, pause))
    case PaddleRef(k) =>
      if k < |w.paddles| then w.(paddles := w.paddles[k := ActPaddle(w.paddles[k], pause)]) else w
  }

  /** Act on the objects of a reference list, in order. Only the bodies
      change, and no body appears or disappears. */
  function ApplyRefs(w: World, refs: seq<Ref>, pause: bool): (r: World)
    ensures r == w.(balls := r.balls, paddles := r.paddles)
    ensures |r.balls| == |w.balls| && |r.paddles| == |w.paddles|
    ensures Ids(r.balls) == Ids(w.balls)
    ensures forall j :: 0 <= j < |w.balls| ==> SamePlace(r.balls[j], w.balls[j])
    ensures forall k :: 0 <= k < |w.paddles| ==> SamePaddle(r.paddles[k], w.paddles[k])
    decreases |refs|
  {
    if |refs| == 0 then w else ApplyRefs(ApplyRef(w, refs[0], pause), refs[1..], pause)
  }

  /** Each ball is acted on once per reference to it. */
  lemma {:induction false} ApplyRefsBall(w: World, refs: seq<Ref>, pause: bool, j: nat)
    requires j < |w.balls|
    ensures ApplyRefs(w, refs, pause).balls[j] ==
            ActBallN(w.balls[j], pause, Count(refs, BallRef(w.balls[j].id)))
    decreases |refs|
  {
    if |refs| > 0 {
      var b := w.balls[j];
      var w1 := ApplyRef(w, refs[0], pause);
      var hit := refs[0] == BallRef(b.id);
      assert w1.balls[j] == if hit then ActBall(b, pause) else b;
      assert w1.balls[j].id == b.id;
      ApplyRefsBall(w1, refs[1..], pause, j);
    }
  }

  /** Each paddle is acted on once per reference to it. */
  lemma {:induction false} ApplyRefsPaddle(w: World, refs: seq<Ref>, pause: bool, k: nat)
    requires k < |w.paddles|
    ensures ApplyRefs(w, refs, pause).paddles[k] ==
            ActPaddleN(w.paddles[k], pause, Count(refs, PaddleRef(k)))
    decreases |refs|
  {
    if |refs| > 0 {
      var p := w.paddles[k];
      var w1 := ApplyRef(w, refs[0], pause);
      var hit := refs[0] == PaddleRef(k);
      assert w1.paddles[k] == if hit then ActPaddle(p, pause) else p;
      ApplyRefsPaddle(w1, refs[1..], pause, k);
    }
  }

  /** `togglePaused()`. */
  function TogglePaused(w: World): (r: World)
    ensures r.paused == !w.paused
    ensures r == w.(paused := r.paused, balls := r.balls, paddles := r.paddles)
    ensures Ids(r.balls) == Ids(w.balls) && |r.paddles| == |w.paddles|
    ensures forall j :: 0 <= j < |w.balls| ==> SamePlace(r.balls[j], w.balls[j])
    ensures forall k :: 0 <= k < |w.paddles| ==> SamePaddle(r.paddles[k], w.paddles[k])
  {
    ApplyRefs(w.(paused := !w.paused), w.objects, !w.paused)
  }

  /** In a well-formed world the toggle pauses (or resumes) every ball and
      every paddle exactly once. */
  lemma ToggleActsOnce(w: World)
    requires Wf(w)
    ensures forall j :: 0 <= j < |w.balls| ==>
              TogglePaused(w).balls[j] == ActBall(w.balls[j], !w.paused)
    ensures forall k :: 0 <= k < |w.paddles| ==>
              TogglePaused(w).paddles[k] == ActPaddle(w.paddles[k], !w.paused)
  {
    var w' := w.(paused := !w.paused);
    forall j | 0 <= j < |w.balls|
      ensures TogglePaused(w).balls[j] == ActBall(w.balls[j], !w.paused)
    {
      BallOnce(w, j);
      ApplyRefsBall(w', w.objects, !w.paused, j);
    }
    forall k | 0 <= k < |w.paddles|
      ensures TogglePaused(w).paddles[k] == ActPaddle(w.paddles[k], !w.paused)
    {
      PaddleOnce(w, k);
      ApplyRefsPaddle(w', w.objects, !w.paused, k);
    }
  }

  lemma ToggleKeepsWf(w: World)
    requires Wf(w)
    ensures Wf(TogglePaused(w))
  {
    ToggleActsOnce(w);
  }

  /** A toggle of a well-formed world leaves it frozen: pausing stops every
      body, and a resumed game need not be at rest. */
  lemma ToggleFreezes(w: World)
    requires Wf(w)
    ensures Frozen(TogglePaused(w))
  {
    ToggleActsOnce(w);
  }

  /** Pausing a running game and resuming it gives every body its velocity
      back, and moves nothing. */
  lemma ToggleTwice(w: World)
    requires Wf(w) && !w.paused
    ensures
      var r := TogglePaused(TogglePaused(w));
      && !r.paused
      && |r.balls| == |w.balls| && |r.paddles| == |w.paddles|
      && (forall j :: 0 <= j < |w.balls| ==>
            BallMotion(r.balls[j]) == BallMotion(w.balls[j]) && SamePlace(r.balls[j], w.balls[j]))
      && (forall k :: 0 <= k < |w.paddles| ==>
            r.paddles[k] == w.paddles[k].(vxCached := w.paddles[k].vx, vyCached := w.paddles[k].vy))
  {
    var p := TogglePaused(w);
    ToggleActsOnce(w);
    ToggleKeepsWf(w);
    ToggleActsOnce(p);
    assert |p.balls| == |w.balls|;
    forall k | 0 <= k < |w.paddles|
      ensures TogglePaused(p).paddles[k] == w.paddles[k].(vxCached := w.paddles[k].vx, vyCached := w.paddles[k].vy)
    {
      PaddlePauseResume(w.paddles[k]);
    }
  }

  /** An object listed twice is paused twice by one toggle: its motion is
      lost, and the next toggle leaves it at rest. */
  lemma ListedTwice(w: World, j: nat)
    requires !w.paused && j < |w.balls|
    requires Count(w.objects, BallRef(w.balls[j].id)) == 2
    ensures BallMotion(TogglePaused(w).balls[j]) == Still
    ensures BallMotion(ActBall(TogglePaused(w).balls[j], false)) == Still
  {
    ApplyRefsBall(w.(paused := true), w.objects, true, j);
  }
}

=== FILE: roster.dfy ===
/** The game's roster: the list of balls, the list of paddles and the list of
    all simulated objects, which holds the very same ball and paddle objects
    again (the per-frame update and the pause toggle walk it). Also the two
    scores, the pause flag and the spawn timer, with `deleteBall`,
    `spawnBall` and the spawn gate.

    JavaScript object identity is modelled by references: a ball carries a
    unique `id` and is referred to as `BallRef(id)`; a paddle is referred to
    by its position in the paddle list. */
module Roster {
  import opened Bodies
  import opened Seqs
  import BallStep

  datatype Ref = BallRef(id: nat) | PaddleRef(index: nat)

  /** The global state of the game. `spawnTs` is the spawn-request timestamp
      (-1 once the requested ball is out); `nextId` is the next unused ball
      identity; `cpuLeft` says whether the computer drives the left paddle. */
  datatype World = World(balls: seq<Ball>, paddles: seq<Paddle>, objects: seq<Ref>,
                         leftScore: nat, rightScore: nat, paused: bool, spawnTs: int,
                         nextId: nat, cpuLeft: bool)

  /** The identities of the balls, in order. */
  function Ids(balls: seq<Ball>): (r: seq<nat>)
    ensures |r| == |balls|
    ensures forall i :: 0 <= i < |balls| ==> r[i] == balls[i].id
  {
    if |balls| == 0 then [] else [balls[0].id] + Ids(balls[1..])
  }

  /** The balls an object list refers to, in order. */
  function BallIds(refs: seq<Ref>): seq<nat>
  {
    if |refs| == 0 then []
    else (if refs[0].BallRef? then [refs[0].id] else []) + BallIds(refs[1..])
  }

  /** The paddles an object list refers to, in order. */
  function PaddleIndices(refs: seq<Ref>): seq<nat>
  {
    if |refs| == 0 then []
    else (if refs[0].PaddleRef? then [refs[0].index] else []) + PaddleIndices(refs[1..])
  }

  lemma {:induction false} BallIdsConcat(a: seq<Ref>, b: seq<Ref>)
    ensures BallIds(a + b) == BallIds(a) + BallIds(b)
    decreases |a|
  {
    if |a| > 0 {
      var head := if a[0].BallRef? then [a[0].id] else [];
      assert (a + b)[0] == a[0] && (a + b)[1..] == a[1..] + b;
      BallIdsConcat(a[1..], b);
      assert BallIds(a + b) == head + (BallIds(a[1..]) + BallIds(b));
      assert head + (BallIds(a[1..]) + BallIds(b)) == (head + BallIds(a[1..])) + BallIds(b);
    } else {
      assert a + b == b;
    }
  }

  lemma {:induction false} PaddleIndicesConcat(a: seq<Ref>, b: seq<Ref>)
    ensures PaddleIndices(a + b) == PaddleIndices(a) + PaddleIndices(b)
    decreases |a|
  {
    if |a| > 0 {
      var head := if a[0].PaddleRef? then [a[0].index] else [];
      assert (a + b)[0] == a[0] && (a + b)[1..] == a[1..] + b;
      PaddleIndicesConcat(a[1..], b);
      assert PaddleIndices(a + b) == head + (PaddleIndices(a[1..]) + PaddleIndices(b));
      assert head + (PaddleIndices(a[1..]) + PaddleIndices(b)) == (head + PaddleIndices(a[1..])) + PaddleIndices(b);
    } else {
      assert a + b == b;
    }
  }

  /** A ball occurs in an object list as often as its identity occurs among
      the list's ball identities. */
  lemma {:induction false} CountBallIds(refs: seq<Ref>, x: nat)
    ensures Count(refs, BallRef(x)) == Count(BallIds(refs), x)
    decreases |refs|
  {
    if |refs| > 0 {
      CountBallIds(refs[1..], x);
      if refs[0].BallRef? {
        var ids := [refs[0].id] + BallIds(refs[1..]);
        assert BallIds(refs) == ids;
        assert ids[0] == refs[0].id && ids[1..] == BallIds(refs[1..]);
        assert Count(ids, x) == (if refs[0].id == x then 1 else 0) + Count(BallIds(refs[1..]), x);
      } else {
        assert BallIds(refs) == BallIds(refs[1..]);
      }
    }
  }

  lemma {:induction false} CountPaddleIndices(refs: seq<Ref>, k: nat)
    ensures Count(refs, PaddleRef(k)) == Count(PaddleIndices(refs), k)
    decreases |refs|
  {
    if |refs| > 0 {
      CountPaddleIndices(refs[1..], k);
      if refs[0].PaddleRef? {
        var ks := [refs[0].index] + PaddleIndices(refs[1..]);
        assert PaddleIndices(refs) == ks;
        assert ks[0] == refs[0].index && ks[1..] == PaddleIndices(refs[1..]);
        assert Count(ks, k) == (if refs[0].index == k then 1 else 0) + Count(PaddleIndices(refs[1..]), k);
      } else {
        assert PaddleIndices(refs) == PaddleIndices(refs[1..]);
      }
    }
  }

  /** A ball reference is in an object list exactly when its identity is
      among the list's ball identities. */
  lemma InBallIds(refs: seq<Ref>, x: nat)
    ensures BallRef(x) in refs <==> x in BallIds(refs)
  {
    CountBallIds(refs, x);
    CountIsMultiplicity(refs, BallRef(x));
    CountIsMultiplicity(BallIds(refs), x);
  }

  /** The invariant every reachable state keeps:
      - the object list refers to the balls of the ball list, in the same
        order, and to each paddle exactly once;
      - ball identities are distinct and below `nextId`;
      - balls never accelerate (no code path of the game sets `ay`), in play
        or cached;
      - paddles have positive height.
      It constrains the bodies, the object list and `nextId` only. */
  predicate Wf(w: World)
  {
    Consistent(w.balls, w.paddles, w.objects, w.nextId)
  }

  predicate Consistent(balls: seq<Ball>, paddles: seq<Paddle>, objects: seq<Ref>, nextId: nat)
  {
    && BallIds(objects) == Ids(balls)
    && Distinct(Ids(balls))
    && (forall i :: 0 <= i < |balls| ==> balls[i].id < nextId)
    && (forall i :: 0 <= i < |balls| ==> balls[i].ay == 0.0 && balls[i].ayCached == 0.0)
    && Distinct(PaddleIndices(objects))
    && (forall k :: k in PaddleIndices(objects) ==> k < |paddles|)
    && (forall k :: 0 <= k < |paddles| ==> k in PaddleIndices(objects))
    && BallStep.Upright(paddles)
  }

  /** Balls and paddles at rest: no ball moves or accelerates and no paddle
      moves. */
  predicate BallsAtRest(balls: seq<Ball>)
  {
    forall j :: 0 <= j < |balls| ==> BallMotion(balls[j]) == Still
  }

  predicate PaddlesAtRest(paddles: seq<Paddle>)
  {
    forall k :: 0 <= k < |paddles| ==> PaddleVelocity(paddles[k]) == (0.0, 0.0)
  }

  /** While the game is paused every body is at rest: the motion of every body sits
      in its pause cache until the resume. */
  predicate Frozen(w: World)
  {
    w.paused ==> BallsAtRest(w.balls) && PaddlesAtRest(w.paddles)
  }

  /** The game as the script loads it, the clock reading `now`: paused, no
      bodies, no points, the computer on the left, and the spawn timer set. */
  function Init(now: int): (r: World)
    ensures Wf(r) && r.paused && Frozen(r)
    // no bodies and no points yet; the computer is set to play the left paddle
    ensures r.balls == [] && r.paddles == [] && r.leftScore == 0 && r.rightScore == 0 && r.cpuLeft
    // the first serve comes a spawn delay after loading, once play starts
    ensures now > 0 ==> forall t :: SpawnGate(r.spawnTs, t) <==> t >= now + SpawnDelayMs
  {
    World([], [], [], 0, 0, true, now, 0, true)
  }

  /** Under the invariant every ball is referred to exactly once. */
  lemma BallOnce(w: World, j: nat)
    requires Wf(w) && j < |w.balls|
    ensures Count(w.objects, BallRef(w.balls[j].id)) == 1
  {
    CountBallIds(w.objects, w.balls[j].id);
    assert Ids(w.balls)[j] == w.balls[j].id;
    DistinctCountsOnce(Ids(w.balls), w.balls[j].id);
  }

  /** Under the invariant every paddle is referred to exactly once. */
  lemma PaddleOnce(w: World, k: nat)
    requires Wf(w) && k < |w.paddles|
    ensures Count(w.objects, PaddleRef(k)) == 1
  {
    CountPaddleIndices(w.objects, k);
    DistinctCountsOnce(PaddleIndices(w.objects), k);
  }

  /** `deleteBall(i)`: the ball leaves the ball list and, if found there,
      the object list (by `indexOf` and `splice`, so both keep the order of
      the others), and the spawn timer is re-armed at `now`. */
  function DeleteBall(w: World, i: nat, now: int): (r: World)
    requires i < |w.balls|
    ensures |r.balls| == |w.balls| - 1
    ensures forall j :: 0 <= j < i ==> r.balls[j] == w.balls[j]
    ensures forall j :: i <= j < |r.balls| ==> r.balls[j] == w.balls[j + 1]
    ensures multiset(r.objects) == multiset(w.objects) - multiset{BallRef(w.balls[i].id)}
    ensures BallRef(w.balls[i].id) in w.objects ==>
              exists k :: 0 <= k < |w.objects| && w.objects[k] == BallRef(w.balls[i].id) &&
                          BallRef(w.balls[i].id) !in w.objects[..k] &&
                          r.objects == w.objects[..k] + w.objects[k + 1..]
    ensures r == w.(balls := r.balls, objects := r.objects, spawnTs := now)
  {
    w.(balls := RemoveAt(w.balls, i), objects := RemoveFirst(w.objects, BallRef(w.balls[i].id)),
       spawnTs := now)
  }

  /** Splitting an object list around a ball reference. */
  lemma SplitRefs(refs: seq<Ref>, k: nat)
    requires k < |refs| && refs[k].BallRef?
    ensures BallIds(refs) == BallIds(refs[..k]) + [refs[k].id] + BallIds(refs[k + 1..])
    ensures BallIds(refs[..k] + refs[k + 1..]) == BallIds(refs[..k]) + BallIds(refs[k + 1..])
    ensures PaddleIndices(refs[..k] + refs[k + 1..]) == PaddleIndices(refs)
  {
    var front := refs[..k];
    var back := refs[k + 1..];
    assert refs == (front + [refs[k]]) + back;
    SplitBallIds(front, refs[k], back);
    SplitPaddleIndices(front, refs[k], back);
  }

  lemma SplitBallIds(front: seq<Ref>, x: Ref, back: seq<Ref>)
    requires x.BallRef?
    ensures BallIds((front + [x]) + back) == BallIds(front) + [x.id] + BallIds(back)
    ensures BallIds(front + back) == BallIds(front) + BallIds(back)
  {
    assert BallIds([x]) == [x.id];
    BallIdsConcat(front + [x], back);
    BallIdsConcat(front, [x]);
    BallIdsConcat(front, back);
  }

  lemma SplitPaddleIndices(front: seq<Ref>, x: Ref, back: seq<Ref>)
    requires x.BallRef?
    ensures PaddleIndices(front + back) == PaddleIndices((front + [x]) + back)
  {
    assert PaddleIndices([x]) == [];
    PaddleIndicesConcat(front + [x], back);
    PaddleIndicesConcat(front, [x]);
    PaddleIndicesConcat(front, back);
    assert PaddleIndices(front) + [] == PaddleIndices(front);
  }

  lemma IdsRemoveAt(balls: seq<Ball>, i: nat)
    requires i < |balls|
    ensures Ids(RemoveAt(balls, i)) == RemoveAt(Ids(balls), i)
  {
    var a := Ids(RemoveAt(balls, i));
    var b := RemoveAt(Ids(balls), i);
    assert |a| == |b|;
    forall j | 0 <= j < |a|
      ensures a[j] == b[j]
    {
      if j < i {
        assert a[j] == balls[j].id;
      } else {
        assert a[j] == balls[j + 1].id;
      }
    }
  }

  /** When the object list refers to the balls in order, each once, the
      deleted ball's reference leaves it from the place its ball leaves the
      ball list, and no paddle reference moves. */
  lemma DeleteRefs(w: World, i: nat, now: int)
    requires i < |w.balls| && BallIds(w.objects) == Ids(w.balls) && Distinct(Ids(w.balls))
    ensures BallIds(DeleteBall(w, i, now).objects) == RemoveAt(Ids(w.balls), i)
    ensures PaddleIndices(DeleteBall(w, i, now).objects) == PaddleIndices(w.objects)
    ensures BallRef(w.balls[i].id) !in DeleteBall(w, i, now).objects
  {
    var r := DeleteBall(w, i, now);
    var id := w.balls[i].id;
    var ref := BallRef(id);
    var ids := Ids(w.balls);
    assert ids[i] == id;
    InBallIds(w.objects, id);
    var k :| 0 <= k < |w.objects| && w.objects[k] == ref && r.objects == w.objects[..k] + w.objects[k + 1..];
    SplitRefs(w.objects, k);
    // the deleted ball sits at the same place in both lists
    DistinctSplit(ids, BallIds(w.objects[..k]), id, BallIds(w.objects[k + 1..]), i);
    CountBallIds(w.objects, id);
    DistinctCountsOnce(ids, id);
    CountIsMultiplicity(w.objects, ref);
    assert multiset(r.objects)[ref] == 0;
  }

  /** Under the invariant, the deleted ball is gone from the object list as
      well, and the invariant still holds. */
  lemma DeleteKeepsWf(w: World, i: nat, now: int)
    requires Wf(w) && i < |w.balls|
    ensures Wf(DeleteBall(w, i, now))
    ensures BallRef(w.balls[i].id) !in DeleteBall(w, i, now).objects
  {
    var r := DeleteBall(w, i, now);
    DeleteRefs(w, i, now);
    IdsRemoveAt(w.balls, i);
    DistinctRemoveAt(Ids(w.balls), i);
    forall j | 0 <= j < |r.balls|
      ensures r.balls[j].id < r.nextId && r.balls[j].ay == 0.0 && r.balls[j].ayCached == 0.0
    {
      var j' := if j < i then j else j + 1;
      assert r.balls[j] == w.balls[j'];
    }
  }

  /** The three `Math.random()` draws of a serve, in call order: the angle,
      the height and the side. */
  datatype Draw = Draw(angle: real, height: real, side: real)

  /** The serve velocity: the serve speed along the drawn angle, towards
      the right when the side draw exceeds 1/2 and to the left otherwise.
      The angle is (angle - 1/2)·π/2, at most 45 degrees off the horizontal,
      so its cosine and sine are `turn(angle - 1/2)`. */
  function ServeVelocity(d: Draw, c: Canvas, m: BallStep.Maths): (v: (real, real))
    ensures BallStep.Unit(m.turn(d.angle - 0.5)) ==> v.0 * v.0 + v.1 * v.1 == BallSpeed(c) * BallSpeed(c)
    ensures m.turn(d.angle - 0.5).0 > 0.0 ==> (v.0 > 0.0 <==> d.side > 0.5)
  {
    var cs := m.turn(d.angle - 0.5);
    var side := if d.side > 0.5 then 1.0 else -1.0;
    var k := BallSpeed(c);
    var vx := -(-side) * k * cs.0;
    var vy := k * cs.1;
    BallStep.UnitTurn(vx, vy, -side, k, cs.0, cs.1);
    BallStep.ReversedDirection(vx, -side, k, cs.0);
    (vx, vy)
  }

  /** The serve height: the height draw scaled to the band where a ball of
      the serve radius fits. */
  function ServeHeight(u: real, c: Canvas): (y: real)
    ensures 0.0 <= u < 1.0 ==> BallRadius(c) <= y < c.height - BallRadius(c)
  {
    var free := c.height - 2.0 * BallRadius(c);
    ScaleBelow(u, free);
    u * free + BallRadius(c)
  }

  lemma ScaleBelow(u: real, l: real)
    requires l > 0.0
    ensures 0.0 <= u < 1.0 ==> 0.0 <= u * l < l
  {
  }

  /** The ball a serve puts in play, at mid-width; it is built with its
      cache equal to its motion and without acceleration. */
  function NewBall(id: nat, d: Draw, c: Canvas, m: BallStep.Maths): (b: Ball)
    ensures b.id == id && b.x == 0.5 * c.width && b.radius == BallRadius(c)
    ensures b.ay == 0.0 && BallCache(b) == BallMotion(b)
    ensures 0.0 <= d.height < 1.0 ==> b.radius <= b.y < c.height - b.radius
    ensures BallStep.Unit(m.turn(d.angle - 0.5)) ==>
              b.vx * b.vx + b.vy * b.vy == BallSpeed(c) * BallSpeed(c)
    ensures m.turn(d.angle - 0.5).0 > 0.0 ==> (b.vx > 0.0 <==> d.side > 0.5)
  {
    var v := ServeVelocity(d, c, m);
    Ball(id, 0.5 * c.width, ServeHeight(d.height, c), v.0, v.1, BallRadius(c), 0.0, v.0, v.1, 0.0)
  }

  /** A ball joins both lists under the next unused identity. */
  function Admit(w: World, b: Ball): (r: World)
    ensures |r.balls| == |w.balls| + 1 && r.balls[..|w.balls|] == w.balls && r.balls[|w.balls|] == b
    ensures r.objects == w.objects + [BallRef(b.id)]
    ensures r == w.(balls := r.balls, objects := r.objects, nextId := r.nextId)
  {
    w.(balls := w.balls + [b], objects := w.objects + [BallRef(b.id)], nextId := w.nextId + 1)
  }

  /** A fresh ball without acceleration joins a well-formed world and keeps
      it well formed. */
  lemma AdmitKeepsWf(w: World, b: Ball)
    requires Wf(w) && b.id == w.nextId && b.ay == 0.0 && b.ayCached == 0.0
    ensures Wf(Admit(w, b))
  {
    var r := Admit(w, b);
    BallIdsConcat(w.objects, [BallRef(b.id)]);
    PaddleIndicesConcat(w.objects, [BallRef(b.id)]);
    assert Ids(r.balls) == Ids(w.balls) + [b.id];
    assert b.id !in Ids(w.balls);
    DistinctAppend(Ids(w.balls), b.id);
  }

  /** `spawnBall()`: outside a pause, a new ball joins both lists and the
      spawn timer is disarmed; during a pause nothing happens. */
  function SpawnBall(w: World, d: Draw, c: Canvas, m: BallStep.Maths): (r: World)
    ensures w.paused ==> r == w
    ensures !w.paused ==>
              && |r.balls| == |w.balls| + 1
              && r.balls[..|w.balls|] == w.balls
              && r.balls[|w.balls|] == NewBall(w.nextId, d, c, m)
              && r.objects == w.objects + [BallRef(w.nextId)]
              && r.spawnTs == -1
              && r.nextId == w.nextId + 1
    ensures r == w.(balls := r.balls, objects := r.objects, spawnTs := r.spawnTs, nextId := r.nextId)
  {
    if w.paused then w
    else Admit(w, NewBall(w.nextId, d, c, m)).(spawnTs := -1)
  }

  lemma SpawnKeepsWf(w: World, d: Draw, c: Canvas, m: BallStep.Maths)
    requires Wf(w)
    ensures Wf(SpawnBall(w, d, c, m))
  {
    if !w.paused {
      AdmitKeepsWf(w, NewBall(w.nextId, d, c, m));
    }
  }

  /** The spawn gate of the frame: the timer is armed and a second has
      passed since it was. */
  predicate SpawnGate(spawnTs: int, now: int)
  {
    spawnTs > 0 && now - spawnTs >= SpawnDelayMs
  }

  /** The spawn step of a frame: serve a ball when the gate is open. */
  function Serve(w: World, now: int, d: Draw, c: Canvas, m: BallStep.Maths): (r: World)
    ensures !SpawnGate(w.spawnTs, now) || w.paused ==> r == w
    ensures SpawnGate(w.spawnTs, now) && !w.paused ==>
              |r.balls| == |w.balls| + 1 && !SpawnGate(r.spawnTs, now)
  {
    if SpawnGate(w.spawnTs, now) then SpawnBall(w, d, c, m) else w
  }

  /** A deletion at a positive time `t` re-arms the spawn: the gate opens
      exactly one second later. */
  lemma DeleteArmsSpawn(w: World, i: nat, t: int, now: int)
    requires i < |w.balls| && t > 0
    ensures SpawnGate(DeleteBall(w, i, t).spawnTs, now) <==> now >= t + SpawnDelayMs
  {
  }

  /** Once served, no second ball comes until a deletion re-arms the timer,
      however much later. */
  lemma NoSecondServe(w: World, now: int, later: int, d: Draw, d': Draw, c: Canvas, m: BallStep.Maths)
    requires SpawnGate(w.spawnTs, now) && !w.paused
    ensures Serve(Serve(w, now, d, c, m), later, d', c, m) == Serve(w, now, d, c, m)
  {
  }
}

=== FILE: seqs.dfy ===
/** Small sequence toolkit used by the roster bookkeeping: positional removal
    (JavaScript's `splice(i, 1)`), first-occurrence search (`indexOf`),
    occurrence counting and distinctness. */
module Seqs {

  /** `s` with the element at position `i` taken out; the others keep their order. */
  function RemoveAt<T>(s: seq<T>, i: nat): (r: seq<T>)
    requires i < |s|
    ensures |r| == |s| - 1
    ensures forall j :: 0 <= j < i ==> r[j] == s[j]
    ensures forall j :: i <= j < |r| ==> r[j] == s[j + 1]
    ensures multiset(r) == multiset(s) - multiset{s[i]}
  {
    assert s == s[..i] + [s[i]] + s[i + 1..];
    s[..i] + s[i + 1..]
  }

  /** Position of the first occurrence of `x` in `s`, or -1 when there is none. */
  function IndexOf<T(==)>(s: seq<T>, x: T): (k: int)
    ensures -1 <= k < |s|
    ensures k == -1 <==> x !in s
    ensures 0 <= k ==> s[k] == x && x !in s[..k]
  {
    if |s| == 0 then -1
    else if s[0] == x then 0
    else
      var k := IndexOf(s[1..], x);
      if k == -1 then -1
      else
        assert s[..k + 1] == [s[0]] + s[1..][..k];
        k + 1
  }

  /** `s` without the first occurrence of `x` (JavaScript's
      `s.splice(s.indexOf(x), 1)` guarded by `indexOf(x) > -1`). */
  function RemoveFirst<T(==)>(s: seq<T>, x: T): (r: seq<T>)
    ensures multiset(r) == multiset(s) - multiset{x}
    ensures x !in s ==> r == s
    ensures x in s ==> exists k :: 0 <= k < |s| && s[k] == x && x !in s[..k] && r == s[..k] + s[k + 1..]
  {
    var k := IndexOf(s, x);
    if k >= 0 then
      assert s[..k] + s[k + 1..] == RemoveAt(s, k);
      RemoveAt(s, k)
    else
      assert multiset(s)[x] == 0;
      s
  }

  /** Number of occurrences of `x` in `s`. */
  function Count<T(==)>(s: seq<T>, x: T): nat
  {
    if |s| == 0 then 0 else (if s[0] == x then 1 else 0) + Count(s[1..], x)
  }

  predicate Distinct<T(==)>(s: seq<T>)
  {
    forall i, j :: 0 <= i < j < |s| ==> s[i] != s[j]
  }

  /** Counting agrees with multiset multiplicity. */
  lemma {:induction false} CountIsMultiplicity<T>(s: seq<T>, x: T)
    ensures Count(s, x) == multiset(s)[x]
  {
    if |s| > 0 {
      assert s == [s[0]] + s[1..];
      CountIsMultiplicity(s[1..], x);
    }
  }

  /** In a sequence without repetitions every member occurs exactly once. */
  lemma DistinctCountsOnce<T>(s: seq<T>, x: T)
    requires Distinct(s)
    ensures x in s ==> Count(s, x) == 1
    ensures x !in s ==> Count(s, x) == 0
  {
    CountIsMultiplicity(s, x);
    if x in s {
      var k := IndexOf(s, x);
      assert s == s[..k] + [x] + s[k + 1..];
      assert x !in s[k + 1..] by {
        assert forall j :: k + 1 <= j < |s| ==> s[j] != s[k];
      }
      assert multiset(s)[x] == multiset(s[..k])[x] + 1 + multiset(s[k + 1..])[x];
    }
  }

  /** Removing an element keeps a sequence free of repetitions. */
  lemma DistinctRemoveAt<T>(s: seq<T>, i: nat)
    requires i < |s| && Distinct(s)
    ensures Distinct(RemoveAt(s, i))
  {
    var r := RemoveAt(s, i);
    forall a, b | 0 <= a < b < |r|
      ensures r[a] != r[b]
    {
      var a' := if a < i then a else a + 1;
      var b' := if b < i then b else b + 1;
      assert r[a] == s[a'] && r[b] == s[b'];
    }
  }

  /** Appending an element absent from a sequence free of repetitions keeps it so. */
  lemma DistinctAppend<T>(s: seq<T>, x: T)
    requires Distinct(s) && x !in s
    ensures Distinct(s + [x])
  {
  }

  /** In a sequence free of repetitions, an element is found at one place
      only: splitting around it is splitting at its index. */
  lemma DistinctSplit<T>(s: seq<T>, front: seq<T>, x: T, back: seq<T>, i: nat)
    requires Distinct(s) && s == front + [x] + back
    requires i < |s| && s[i] == x
    ensures front == s[..i] && back == s[i + 1..]
    ensures RemoveAt(s, i) == front + back
  {
    var m := |front|;
    assert s[m] == x;
    assert m == i;
    assert s[..i] == front;
    assert s[i + 1..] == back;
  }
}
